=== FILE: README.md ===
# preact-i18n editor integration — a Dafny model

The extension binds the `@mpt/preact-i18n` tooling library to the editor
host. It discovers `i18n.json5` project configurations, keeps one project
per configuration loaded and in sync with its translation data file and
source files, shows diagnostics for missing and outdated translations, and
offers a translation editor panel that follows the selection. This project
models the sequential logic of that integration. The library calls
(`verify`, `getDiagnostics`, data and configuration parsing, offset and
position conversion, fragment lookup) and the host's I/O become inputs.

Modules, one per concern of the extension:

- `Base`: optional values, results, I/O errors, output-channel lines.
- `Search`: the generic binary search with its comparator (`src/util.ts`).
- `RateLimit`: the leading-edge rate limiter in both copies (`src/util.ts`
  and `src/utility.ts`). The copies differ only in their default delay
  and in the optional `onError` handler. `useRateLimit`'s error dispatch
  is modelled here too.
- `Disposal`: `disposeAll`.
- `Projects`: one project (`src/vsc-project.ts`). It covers the `valid` and
  `dirty` flags, editing and saving, data and source reloads, verification,
  the guarded registration of watchers, the watcher handlers and dispose.
- `ProjectManager`: the registry from configuration path to project
  (`src/vsc-project-manager.ts`). It covers insertion order, the
  `allSources` side map, the initial scan, the configuration watcher and
  teardown.
- `Diagnostics`: `getMessage` and the reconciliation of the diagnostic
  collection (`src/diagnostics.ts`).
- `PanelEditor`: the translation editor panel (`src/editor.ts`).
- `SelectionEditor`: the selection-driven editor (`src/editor/index.ts`).

Every state is an immutable datatype. Every operation is a pure function
that returns the new state with the ordered list of its effects: events
fired, lines logged, files written, objects disposed. Object identity
(project and source-file instances, editor views) is a `serial` number.
The insertion order of a JavaScript `Map` is an explicit `order` sequence
next to the map. Time is an explicit integer. A pending `setTimeout` is a
stored deferred call, and a separate `Fire` step runs it. A host
`Disposable` runs its callback only once, so disposing twice is a no-op.

Behaviour of the code that the model reproduces and states as lemmas:

- After a deferred run, the limiter's window restarts at the time the
  deferred call was made, not at the time its timer went off. So the
  action can run twice within much less than `delay`. Take delay 300:
  calls at 0, 1 and 302 run the action at 0, 300 and 302
  (`RateLimit.WindowRestartsAtScheduling`).
- A configuration load that resumes after the manager was disposed still
  files its project (`ProjectManager.LoadAfterDisposeStillRegisters`).
- Disposing a diagnostics provider clears the project's current sources
  only. The out-of-sync warning on the configuration file stays.
- The panel's view-state handler never refreshes the view. An update that
  reaches a hidden panel posts nothing, so when the panel is shown again it
  still shows the state it had before the update
  (`PanelEditor.HiddenUpdateLeavesStaleState`).
- The data-file watcher only handles change events. A data file that is
  created after loading is not read (`Projects.HandleFsEvent`).

## Model

| member | source | states |
|---|---|---|
| `Search.Mid` | src/util.ts:38 | the probe index lies inside the current range, and the range splits into halves that differ by at most one |
| `Search.Probe` | src/util.ts:34-46 | a found index lies in the searched range, and the comparator answers 0 for the element there |
| `Search.ProbeComplete` | src/util.ts:37-46 | for a comparator monotone over the array (1 left of the hits, -1 right of them), the search misses only if no element compares 0 |
| `Search.BinarySearchIndex` | src/util.ts:34-46 | the loop computes the search. A found index is in bounds and compares 0. Under monotonicity the result is undefined iff nothing compares 0. An empty array probes nothing. Every probed index is in bounds. The last probe is the index returned |
| `Search.BinarySearch` | src/util.ts:48-51 | returns `array[i]` exactly when the index search returns `i`, otherwise undefined; under monotonicity undefined iff nothing compares 0 |
| `Search.ToInt32` | src/util.ts:38 | the conversion yields a signed 32-bit value congruent to its input modulo 2^32 |
| `Search.ShiftMidAgrees` | src/util.ts:38 | for arrays of at most 2^30 elements `(start + end) >> 1` is the midpoint |
| `Search.ShiftMidNegative` | src/util.ts:38 | for an array of 2^31 + 1 elements the first probe of `(start + end) >> 1` is negative |
| `RateLimit.Initial` | src/utility.ts:8-9 | a fresh limiter has no timer, and its first call runs at once |
| `RateLimit.Call` | src/util.ts:5-20 | a call while a timer is pending is dropped with no state change. A call past the window runs at once with its own arguments and sets the window to `now + delay`. Any other call schedules one deferred call with its arguments, due at `nextImmediate`, a non-negative wait |
| `RateLimit.Fire` | src/util.ts:14-18 | the timer clears itself, runs the deferred arguments and sets the window to scheduling time plus `delay`; with no timer nothing runs |
| `RateLimit.Route` | src/utility.ts:15-38 | an exception of the action, in either branch, goes to `onError` iff one was given, otherwise it escapes; a normal return routes nothing |
| `RateLimit.DecoratedFate` | src/utility.ts:44-52 | under `useRateLimit` an exception reaches the receiver's deferred-error handler when it has one and is rethrown otherwise |
| `RateLimit.DroppedWhilePending` | src/utility.ts:12-14 | any series of calls while a timer is pending runs nothing and leaves the state unchanged |
| `RateLimit.BurstRunsAtMostTwice` | src/util.ts:7-18 | calls within one window of the first run at most twice counting the pending timer. A burst opening a window runs its first call at once and defers exactly its second call's arguments |
| `RateLimit.CallKeepsSpacing` | src/util.ts:10-12 | while the limiter is spaced after an immediate run, the next immediate run comes more than `delay` after that immediate run, and the window then reaches `now + delay`; a call that does not run keeps the spacing. After a deferred run this fails (`RateLimit.WindowRestartsAtScheduling`) |
| `RateLimit.WindowRestartsAtScheduling` | src/util.ts:14-18 | calls at 0, 1 and 302 with delay 300 run the action at 0, 300 and 302, only 2 apart |
| `Disposal.DisposeAll` | src/utility.ts:60-63 | each element is disposed once, in order, and the array is left empty |
| `Projects.New` | src/vsc-project.ts:43-45 | a new project is neither valid, dirty nor disposed, and watches nothing |
| `Projects.SetTranslation` | src/vsc-project.ts:66-76 | an unknown id changes nothing and fires nothing. Otherwise the project becomes dirty, only `translations[language]` of that set becomes `{now, value}`, and `onDidEdit` fires once |
| `Projects.SaveChanges` | src/vsc-project.ts:82-91 | a clean project writes nothing. A dirty one writes its data exactly once, to the data file. Only a successful write clears `dirty`, and a failure is raised |
| `Projects.EditSaveCycle` | src/vsc-project.ts:66-91 | edit then save writes the edited data exactly once and leaves the project clean; saving again writes nothing |
| `Projects.UpdateProjectData` | src/vsc-project.ts:93-108 | a reload keeps `dirty` and warns iff dirty. A successful read replaces the data and fires the update event. A failed one keeps the data, silently for `FileNotFound`, with an error line otherwise. It fires no other event |
| `Projects.UpdateSource` | src/vsc-project.ts:110-121 | a successful read inserts or replaces the source at its path and fires with it; a failure leaves the sources unchanged and is logged. It fires no other event |
| `Projects.RemoveSource` | src/vsc-project.ts:123-127 | exactly that path is removed and the event carries it |
| `Projects.Updated` | src/vsc-project.ts:129-136 | `valid` becomes the verdict; `onDidVerify` fires once iff that changed it; `onDidUpdate` fires once, last |
| `Projects.UpdatedTwiceFiresVerifyOnce` | src/vsc-project.ts:129-136 | a second verification with nothing changed does not fire `onDidVerify` |
| `Projects.UpdateSources` | src/vsc-project.ts:140-147 | loading found files keeps every known source, loads every found source file whose read succeeds, adds no path that is not a found source file, and fires only source updates |
| `Projects.UpdateSourcesKeepsText` | src/vsc-project.ts:140-147 | a known source that no found file replaces keeps its text |
| `Projects.UpdateSourcesLastLoadWins` | src/vsc-project.ts:140-147 | a path holds the text of the last found source file there whose read succeeds |
| `Projects.UpdateSourcesTexts` | src/vsc-project.ts:140-147 | both of the above for every path at once |
| `Projects.Load` | src/vsc-project.ts:138-148 | after loading, `valid` is the verdict on the loaded data and sources. The data is the file's when it was read and unchanged otherwise. Every known source is kept, and keeps its text unless a found file replaces it. Each found source file's path holds the text of the last successful read there, and no other path is added. `dirty`, disposal and watchers are untouched |
| `Projects.SourceWatchers` | src/vsc-project.ts:162-186 | one source watcher per configured pattern, in order |
| `Projects.RegisterWatchers` | src/vsc-project.ts:149-187 | a disposed project registers nothing; otherwise one data watcher and one watcher per source pattern are added |
| `Projects.Start` | src/vsc-project.ts:138-187 | without a listing error the project loads, `valid` becomes the verdict, and the watchers are registered iff it was not disposed, the data watcher first. A failed listing loads the data and the files listed before it, the constructor's catch (line 20) logs the error, and it leaves `valid` and the watchers as they were, firing nothing but data and source updates |
| `Projects.Dispose` | src/vsc-project.ts:15-18 | the first dispose marks the project disposed and disposes every watcher in order; a second does nothing |
| `Projects.DisposedDuringStartupWatchesNothing` | src/vsc-project.ts:149 | a project disposed before its startup finishes never registers a watcher |
| `Projects.HandleFsEvent` | src/vsc-project.ts:154-184 | a data-file change reloads the data and verifies. A source deletion removes exactly that path, a creation or change stores exactly the new text at that path, and a failed read keeps the sources; after each `valid` is the verdict on the new data and sources. Only a data-file change can touch the data. Other files change nothing, and neither does a project without live watchers. A project whose flag matches the verdict keeps it matching |
| `Projects.WatchedProjectStaysVerified` | src/vsc-project.ts:154-184 | whatever series of events the watchers deliver, `valid` stays the library's verdict on the current data and sources, and `dirty` and disposal are untouched |
| `ProjectManager.New` | src/vsc-project-manager.ts:22-26 | a new manager is empty, undisposed and not yet watching |
| `ProjectManager.WithoutRemovesAt` | src/vsc-project-manager.ts:81-90 | deleting a key that occurs once from the insertion order keeps the keys before and after it in their order |
| `ProjectManager.RemoveProject` | src/vsc-project-manager.ts:81-90 | an absent path changes nothing and fires nothing. A present one loses its entry and its place in the insertion order, its project is disposed once and `onDidChangeProjects` fires once. `allSources` is untouched and the registry invariant is kept |
| `ProjectManager.UpdateProject` | src/vsc-project-manager.ts:53-79 | any old project for the path is disposed first and leaves the insertion order. A good config files a fresh instance last in insertion order, and a failed read or parse leaves no entry and logs the error. Other paths and `allSources` are untouched |
| `ProjectManager.OnSourceUpdated` | src/vsc-project-manager.ts:63-66 | `allSources[filename]` is inserted or overwritten, other entries kept, and `onDidChangeProject` fires once |
| `ProjectManager.OnSourceRemoved` | src/vsc-project-manager.ts:67-70 | exactly that filename is deleted from `allSources` and `onDidChangeProject` fires once |
| `ProjectManager.OnDataUpdated` | src/vsc-project-manager.ts:62 | a data reload only fires `onDidChangeProject` |
| `ProjectManager.RemoveAll` | src/vsc-project-manager.ts:15-17 | removing a list of paths deletes exactly those entries and keeps the invariant |
| `ProjectManager.RemoveAllDisposesInOrder` | src/vsc-project-manager.ts:15-17 | removing distinct registered paths disposes each of their projects once, in list order |
| `ProjectManager.Dispose` | src/vsc-project-manager.ts:12-18 | the first dispose disposes the configuration watcher first, if there is one, then empties the registry; a second does nothing |
| `ProjectManager.DisposeDisposesEveryProject` | src/vsc-project-manager.ts:12-18 | dispose disposes every registered project exactly once, in insertion order |
| `ProjectManager.FinishStart` | src/vsc-project-manager.ts:45-50 | the configuration watcher is created iff the manager was not disposed |
| `ProjectManager.DisposedDuringScanNeverWatches` | src/vsc-project-manager.ts:42-50 | a manager disposed during its initial scan never creates the watcher |
| `ProjectManager.UpdateAll` | src/vsc-project-manager.ts:43-44 | loading every found configuration keeps the registry invariant |
| `ProjectManager.UpdateAllKeepsFlags` | src/vsc-project-manager.ts:43-44 | the scan changes neither the disposed flag nor the watcher |
| `ProjectManager.UpdateAllLastWins` | src/vsc-project-manager.ts:55-59 | a path whose last configuration in the scan fails has no entry |
| `ProjectManager.UpdateAllLastOk` | src/vsc-project-manager.ts:53-72 | a path whose last configuration in the scan reads and parses is filed with that configuration |
| `ProjectManager.UpdateAllUntouched` | src/vsc-project-manager.ts:43-44 | a path the scan does not mention keeps or lacks its entry as before, with the same instance |
| `ProjectManager.Start` | src/vsc-project-manager.ts:19-51 | a failed listing of configuration files changes nothing and only logs the error, so no watcher is ever created. Otherwise the start keeps the invariant: a path whose configuration failed last has no entry, one whose configuration parsed last is filed with that configuration, paths not found keep or lack their entry, and the watcher exists afterwards iff the manager was not disposed |
| `ProjectManager.HandleConfigEvent` | src/vsc-project-manager.ts:47-49 | a created or changed configuration is reloaded and a deleted one removed, only once the watcher exists |
| `ProjectManager.LoadAfterDisposeStillRegisters` | src/vsc-project-manager.ts:53-72 | a load that completes after dispose still files its project |
| `Diagnostics.GetMessage` | src/diagnostics.ts:26-34 | a message exists exactly for missing and outdated translations and embeds the fragment id and the language |
| `Diagnostics.MessagesTellKindsApart` | src/diagnostics.ts:26-34 | the missing and outdated messages for the same id and language differ |
| `Diagnostics.Entry` | src/diagnostics.ts:44-72 | only a missing or outdated diagnostic whose id resolves to a source and a fragment yields an entry, with severity Information, spanning the fragment's start to end positions |
| `Diagnostics.Group` | src/diagnostics.ts:42-73 | the grouping holds exactly the sources with entries, each with its entries in report order, and lists them once each |
| `Diagnostics.Update` | src/diagnostics.ts:39-98 | valid: each source with entries holds exactly its list, stale used sources and the config file are cleared, and `usedSources` becomes the sources with entries. Invalid: every used source is cleared, `usedSources` is emptied, and the config file holds the one out-of-sync warning at 0:0-0:0. Other uris are untouched |
| `Diagnostics.Provide` | src/diagnostics.ts:36-37 | a new provider is subscribed and has filled no source yet |
| `Diagnostics.OnProjectEvent` | src/diagnostics.ts:100-102 | the reconciliation runs on `onDidVerify` while subscribed, and on no other event |
| `Diagnostics.ReconcilesOnlyOnValidityChange` | src/diagnostics.ts:100-102 | a verification that keeps validity, or reaches a disposed provider, leaves the diagnostics as they were; otherwise it reconciles once with the new validity |
| `Diagnostics.Dispose` | src/diagnostics.ts:104-109 | the first dispose drops the `onDidVerify` subscription and clears every current source of the project, nothing else; a second dispose does nothing |
| `Diagnostics.DisposedIgnoresProject` | src/diagnostics.ts:100-105 | after dispose, nothing the project fires changes the diagnostics |
| `PanelEditor.New` | src/editor.ts:82 | a new panel has no target and was never active |
| `PanelEditor.Retarget` | src/editor.ts:19-28 | a target whose file is gone becomes null. One whose file maps to a different object is re-pointed with the same ids. Otherwise it is unchanged |
| `PanelEditor.RetargetIdempotent` | src/editor.ts:19-28 | against files filed under their names, a retargeted target points at the current object, and retargeting again changes nothing |
| `PanelEditor.ViewStateFor` | src/editor.ts:88-107 | no target gives no-selection and an invalid project gives out-of-sync. Otherwise the state is edit, with the ids' translation sets and the configured languages |
| `PanelEditor.UpdateView` | src/editor.ts:86-108 | the state is posted only while the panel is visible |
| `PanelEditor.OnProjectsUpdate` | src/editor.ts:19-28 | a projects update retargets and then refreshes the view |
| `PanelEditor.Receive` | src/editor.ts:54-62 | a set-translation message is forwarded to the target's project iff there is a target; every other message is ignored |
| `PanelEditor.OnViewStateChange` | src/editor.ts:45-50 | modified projects are saved iff the panel was active before this change; activity and visibility are recorded, and no state is posted |
| `PanelEditor.SavesWhenLeavingActivePanel` | src/editor.ts:45-50 | the first change never saves; the next saves iff the first left the panel active |
| `PanelEditor.HiddenUpdateLeavesStaleState` | src/editor.ts:45-50 | an update reaching a hidden panel posts nothing, and showing the panel again posts nothing either |
| `PanelEditor.Update` | src/editor.ts:115-121 | the target is replaced, the panel is revealed iff asked, and the view is always refreshed |
| `SelectionEditor.CollectIsReference` | src/editor/index.ts:56-64 | the loop yields exactly the translation sets of the selected fragments that have one, keyed by fragment id |
| `SelectionEditor.Chosen` | src/editor/index.ts:44-46 | without an editor argument the active text editor is used |
| `SelectionEditor.UpdateSelection` | src/editor/index.ts:43-67 | the editor's document and selection are read as they are when the handler runs. A dirty document, a non-source file, an unknown source or an invalid project changes nothing and fires nothing. Otherwise the sets are replaced wholesale by those of the fragments in the selection that have one, and the event fires |
| `SelectionEditor.Run` | src/editor/index.ts:69-71 | an exception of the handler is written to the output and changes nothing else; a normal run applies the selection update |
| `SelectionEditor.Trigger` | src/editor/index.ts:43 | an event while a timer is pending changes nothing. An event past the window runs the handler at once: a normal run applies the selection update, and a throwing one only logs. Any other event defers its argument and changes neither the sets nor the output |
| `SelectionEditor.TimerFires` | src/editor/index.ts:43-71 | the pending timer clears itself and runs the handler with the deferred editor argument: a normal run applies the selection update, a throwing one only logs. The window restarts at the time of the deferred call plus the delay of 100 |
| `SelectionEditor.PendingTimerIgnoresEvents` | src/editor/index.ts:43 | with a timer pending, any series of events leaves everything as it is |
| `SelectionEditor.DeferredRunReadsLiveEditor` | src/editor/index.ts:43-46 | a deferred run sees the editor as it is when the timer goes off: if its document became dirty after the call, neither the call nor the timer changes the sets |
| `SelectionEditor.GetView` | src/editor/index.ts:73-81 | an open view is reused; otherwise a fresh one is built and kept |
| `SelectionEditor.ViewDisposed` | src/editor/index.ts:76-78 | closing the view forgets it |
| `SelectionEditor.OneViewAtATime` | src/editor/index.ts:73-81 | asking twice gives the same view, and after it is closed the next view is a different one |

## Left out

- Offset-to-position conversion, position-to-offset conversion and fragment lookup live in the tooling library's `SourceFile`, so they are function-valued inputs. So are `verify`, `getDiagnostics`, `getSourceForId`, `Data.parse`/`stringify`, `Config.parse` and `isSourceFile`.
- File reads and writes are result inputs, and a file listing (`findFiles`) is its list of files plus an optional error. A failed listing aborts the start of a project (`Projects.Start`) or of the manager (`ProjectManager.Start`). `Date.now`, `setTimeout`, the text encoder and the text decoder are replaced by explicit times, a `Fire` step and plain strings.
- `asyncQueue` is promise chaining and is not modelled. Neither are the interleavings of asynchronous handlers: each handler runs as one step. The manager's concurrent initial scan (`Promise.all`) runs one configuration at a time.
- The output channel's formatting and prompts are not modelled; a log is a list of message, warning and error lines.
- Not modelled: library resolution and version checks (`src/preact-i18n-api.ts`), the webview HTML and renderers, activation, and the panel's creation and dispose. The same goes for the command and event subscriptions of the selection editor and the `provideDiagnostics` glue that maps projects to providers.
- `VscSourceFile.from` and its symbol-keyed back-reference are not modelled. Source files are identified by path in `Diagnostics` and by a serial number in the editors.
- Search.BinarySearchIndex: the comparator is a pure function of the element and its index, returning exactly -1, 0 or 1. The source also passes the array, which the closure captures here. A comparator answering anything else would loop forever in the source, and that case is not modelled.
- RateLimit.Call: the `this` receiver is not modelled, and neither is the case of a timer that fires before its due time. A host timer never fires early.
- Projects.HandleFsEvent: events reach the project only through its registered watchers, and a watcher reports a file only when it matches the watcher's pattern. The model assumes both and does not model glob matching.
- Projects.SetTranslation: a translation value is a string. The library's plural values are not distinguished.
- Diagnostics.Entry: offset-to-position conversion is total here. In the source it may return `undefined`. The `!` after the call is only a type assertion, so reading `start.line` then throws, and `update` stops before any write to the collection. The model does not describe that abort.
- SelectionEditor.UpdateSelection: the editor's sets are copies of the project's translation sets. The source stores the project's own `TranslationSet` objects, and `setTranslation` changes them in place, so the source's map shows later edits without a new selection run.
- PanelEditor.Retarget: it returns a new target. The source changes the target object in place (`this._target.sourceFile = sourceFile`), and that object is the one the caller passed to `update`. Object sharing is not modelled.
- Disposal.DisposeAll: every `dispose()` returns normally. In the source a throwing `dispose()` stops `forEach`, so the later elements are not disposed and the array is not emptied.
- Diagnostics.Update: diagnostics are keyed by source path rather than by source object. Two source objects for the same path would collapse into one key.

## Findings

| source | as written | input that shows it | evidently intended | confidence | as-written member | corrected member |
|---|---|---|---|---|---|---|
| src/util.ts:38 | `(start + end) >> 1` converts the sum to a signed 32-bit integer before halving | an array of 2^31 + 1 elements (JavaScript allows up to 2^32 - 1): the first probe is `(0 + 2^31) >> 1`, which is -2^30 | the midpoint `floor((start + end) / 2)`, always inside the range | medium: affects only arrays over 2^30 elements; not executed | `Search.ShiftMid`, shown by `Search.ShiftMidNegative` | `Search.Mid`, used by `Search.Probe` and `Search.BinarySearchIndex` |

=== FILE: base.dfy ===
/** Shared vocabulary of the model: optional values, results of I/O and
    parsing, file paths and the lines written to the output channel. */
module Base {

  /** A value that may be absent (`undefined` / `null` in the extension). */
  datatype Option<+T> = None | Some(value: T)

  /** The outcome of a read, a parse or any other call that may throw. */
  datatype Result<+T, +E> = Ok(value: T) | Err(error: E)

  /** File system paths (`uri.fsPath`); a uri is identified with its path. */
  type Path = string

  /** Fragment identifiers, as found by the i18n tooling library. */
  type Id = string

  /** Language tags from a project configuration. */
  type Language = string

  /** Why a read, a write or a parse failed. Only a read of a missing file
      carries the host's `FileNotFound` code. */
  datatype IoError = FileNotFound | OtherError(message: string)

  /** One line appended to the extension's output channel, by kind:
      `message`, `warn` (also shown as a prompt) and `error`. */
  datatype LogLine = Message(text: string) | Warn(text: string) | Error(text: string)

  /** A zero-based line and character position in a text document. */
  datatype Position = Position(line: int, character: int)

  /** A project instance, as the editors refer to it; `serial` stands for
      object identity. */
  datatype ProjectRef = ProjectRef(serial: nat)

  /** The paths of `order` are distinct. */
  ghost predicate Distinct(order: seq<Path>)
  {
    forall i, j :: 0 <= i < j < |order| ==> order[i] != order[j]
  }

  /** Text used when an error is written to the output channel. */
  function Describe(e: IoError): string
  {
    match e
    case FileNotFound => "FileNotFound"
    case OtherError(m) => m
  }
}

=== FILE: diagnostics.dfy ===
/** The diagnostics of one project, kept in the editor's per-uri collection.
    Whenever the project's validity changes, the library's diagnostic list
    is turned into per-source entries (valid project) or into one warning
    on the configuration file (invalid project). The provider remembers
    which sources it filled so that it can clear them later. The library's
    lookups (source of an id, fragment of an id, offset to position) are
    inputs. */
module Diagnostics {
  import opened Base
  import Projects

  /** The kinds of diagnostic the library reports; only the first two are
      shown in source files. */
  datatype Kind = MissingTranslation | OutdatedTranslation | OtherKind(name: string)

  /** One diagnostic as the library reports it. */
  datatype Report = Report(kind: Kind, id: Id, language: Language)

  datatype Range = Range(start: Position, end: Position)
  datatype Severity = Information | Warning

  /** One diagnostic as handed to the editor. */
  datatype Diagnostic = Diagnostic(range: Range, message: string, severity: Severity)

  /** A fragment's offsets in its source text. */
  datatype Fragment = Fragment(start: int, end: int)

  /** The lookups the reconciliation makes through the project and its
      source files; they belong to the tooling library. */
  datatype Lookups = Lookups(
    sourceForId: Id -> Option<Path>,
    fragmentById: (Path, Id) -> Option<Fragment>,
    offsetToPosition: (Path, int) -> Position)

  /** The editor's diagnostic collection: entries by uri. */
  type Collection = map<Path, seq<Diagnostic>>

  /** The provider's state: whether its `onDidVerify` subscription is
      still live, the sources it filled last, and the collection. */
  datatype State = State(subscribed: bool, usedSources: seq<Path>, collection: Collection)

  /** A provider as `provideDiagnostics` returns it: subscribed, with no
      source filled yet, over the editor's current collection. */
  function Provide(collection: Collection): (r: State)
    ensures r.subscribed && r.usedSources == [] && r.collection == collection
  {
    State(true, [], collection)
  }

  /** Kinds that are shown in source files. */
  predicate Shown(k: Kind)
  {
    k.MissingTranslation? || k.OutdatedTranslation?
  }

  /** The `n` characters of `s` from index `i`; empty when out of range. */
  function Slice(s: string, i: int, n: nat): string
  {
    if 0 <= i && i + n <= |s| then s[i..i + n] else []
  }

  /** `x` occurs in `s`. */
  ghost predicate Embeds(s: string, x: string)
  {
    exists i :: 0 <= i <= |s| - |x| && Slice(s, i, |x|) == x
  }

  const MessagePrefix: string := "Translation for fragment #"
  const MessageMiddle: string := " for language \""

  /** `getMessage`: a message for the two shown kinds, naming the fragment
      id and the language; nothing for any other kind. */
  function GetMessage(d: Report): (r: Option<string>)
    ensures r.Some? <==> Shown(d.kind)
    ensures r.Some? ==> Embeds(r.value, d.id) && Embeds(r.value, d.language)
  {
    if !Shown(d.kind) then None
    else
      var ending := if d.kind.MissingTranslation? then "\" is missing." else "\" is outdated.";
      var text := MessagePrefix + d.id + MessageMiddle + d.language + ending;
      var at := |MessagePrefix + d.id + MessageMiddle|;
      assert Slice(text, |MessagePrefix|, |d.id|) == d.id;
      assert Slice(text, at, |d.language|) == d.language;
      Some(text)
  }

  /** The message tells a missing translation from an outdated one. */
  lemma MessagesTellKindsApart(id: Id, language: Language)
    ensures GetMessage(Report(MissingTranslation, id, language)) != GetMessage(Report(OutdatedTranslation, id, language))
  {
    var missing := GetMessage(Report(MissingTranslation, id, language)).value;
    var outdated := GetMessage(Report(OutdatedTranslation, id, language)).value;
    assert |missing| + 1 == |outdated|;
  }

  /** What one reported diagnostic contributes: a shown kind whose id
      resolves to a source and to a fragment of it yields an Information
      entry for that source, spanning the fragment; anything else yields
      nothing. */
  function Entry(lk: Lookups, d: Report): (r: Option<(Path, Diagnostic)>)
    ensures r.Some? <==>
              && Shown(d.kind)
              && lk.sourceForId(d.id).Some?
              && lk.fragmentById(lk.sourceForId(d.id).value, d.id).Some?
    ensures r.Some? ==>
              var source := lk.sourceForId(d.id).value;
              var f := lk.fragmentById(source, d.id).value;
              && r.value.0 == source
              && r.value.1.severity == Information
              && r.value.1.range == Range(lk.offsetToPosition(source, f.start), lk.offsetToPosition(source, f.end))
              && GetMessage(d) == Some(r.value.1.message)
  {
    if !Shown(d.kind) then None
    else
      match lk.sourceForId(d.id)
      case None => None
      case Some(source) =>
        match lk.fragmentById(source, d.id)
        case None => None
        case Some(f) =>
          var range := Range(lk.offsetToPosition(source, f.start), lk.offsetToPosition(source, f.end));
          Some((source, Diagnostic(range, GetMessage(d).value, Information)))
  }

  /** Reference: the entries a report list yields for one source, in
      report order. */
  function ForSource(lk: Lookups, ds: seq<Report>, source: Path): seq<Diagnostic>
  {
    if ds == [] then []
    else
      var last := Entry(lk, ds[|ds| - 1]);
      ForSource(lk, ds[..|ds| - 1], source) + (if last.Some? && last.value.0 == source then [last.value.1] else [])
  }

  /** Reference: the sources that receive at least one entry. */
  function Sources(lk: Lookups, ds: seq<Report>): set<Path>
  {
    if ds == [] then {}
    else
      var last := Entry(lk, ds[|ds| - 1]);
      Sources(lk, ds[..|ds| - 1]) + (if last.Some? then {last.value.0} else {})
  }

  /** The entries grouped per source, and the sources in order of their
      first entry. */
  datatype Grouping = Grouping(entries: map<Path, seq<Diagnostic>>, order: seq<Path>)

  /** The loop over the report: each entry is appended to its source's
      list, opening the list when the source is new. The result holds, for
      exactly the sources that receive entries, their entries in report
      order. */
  function Group(lk: Lookups, ds: seq<Report>): (g: Grouping)
    ensures g.entries.Keys == Sources(lk, ds)
    ensures forall s :: s in g.entries ==> g.entries[s] == ForSource(lk, ds, s)
    ensures Distinct(g.order) && forall s :: s in g.order <==> s in g.entries
  {
    if ds == [] then Grouping(map[], [])
    else
      var g := Group(lk, ds[..|ds| - 1]);
      match Entry(lk, ds[|ds| - 1])
      case None => g
      case Some((source, diagnostic)) =>
        if source in g.entries then Grouping(g.entries[source := g.entries[source] + [diagnostic]], g.order)
        else
          assert ForSource(lk, ds[..|ds| - 1], source) == [] by {
            NoEntriesOutsideSources(lk, ds[..|ds| - 1], source);
          }
          Grouping(g.entries[source := [diagnostic]], g.order + [source])
  }

  /** A source outside `Sources` has no entries. */
  lemma {:induction false} NoEntriesOutsideSources(lk: Lookups, ds: seq<Report>, source: Path)
    requires source !in Sources(lk, ds)
    ensures ForSource(lk, ds, source) == []
    decreases |ds|
  {
    if ds != [] {
      NoEntriesOutsideSources(lk, ds[..|ds| - 1], source);
    }
  }

  /** The warning the configuration file gets while the project is invalid. */
  const OutOfSync: Diagnostic :=
    Diagnostic(Range(Position(0, 0), Position(0, 0)), "Project data and sources are out of sync.", Warning)

  /** The `update` reconciliation. For a valid project each source with
      entries holds exactly its new list, every previously used source
      without entries is cleared, the configuration file is cleared, and
      the used sources become those that received entries. For an invalid
      project every previously used source is cleared, none is used any
      more and the configuration file holds the single out-of-sync warning.
      Other uris are never touched. */
  function Update(st: State, valid: bool, lk: Lookups, ds: seq<Report>, configUri: Path): (r: State)
    ensures valid ==>
              && (forall s :: s in Sources(lk, ds) && s != configUri ==>
                    s in r.collection && r.collection[s] == ForSource(lk, ds, s))
              && (forall u :: u in st.usedSources && u !in Sources(lk, ds) ==> u !in r.collection)
              && configUri !in r.collection
              && Distinct(r.usedSources)
              && (forall s :: s in r.usedSources <==> s in Sources(lk, ds))
    ensures !valid ==>
              && (forall u :: u in st.usedSources && u != configUri ==> u !in r.collection)
              && r.usedSources == []
              && configUri in r.collection && r.collection[configUri] == [OutOfSync]
    ensures forall k :: k !in st.usedSources && k != configUri && (valid ==> k !in Sources(lk, ds)) ==>
              (k in r.collection <==> k in st.collection) &&
              (k in st.collection ==> r.collection[k] == st.collection[k])
    ensures r.subscribed == st.subscribed
  {
    if valid then
      var g := Group(lk, ds);
      var cleared := map k | k in st.collection && !(k in st.usedSources && k !in g.entries) :: st.collection[k];
      State(st.subscribed, g.order, (cleared + g.entries) - {configUri})
    else
      var cleared := map k | k in st.collection && k !in st.usedSources :: st.collection[k];
      State(st.subscribed, [], cleared[configUri := [OutOfSync]])
  }

  /** The subscription: the reconciliation runs on `onDidVerify` only, and
      only while the provider is subscribed. */
  function OnProjectEvent(st: State, event: Projects.Event, valid: bool, lk: Lookups, ds: seq<Report>, configUri: Path): (r: State)
    ensures event != Projects.DidVerify || !st.subscribed ==> r == st
    ensures event == Projects.DidVerify && st.subscribed ==> r == Update(st, valid, lk, ds, configUri)
  {
    if event == Projects.DidVerify && st.subscribed then Update(st, valid, lk, ds, configUri) else st
  }

  /** The provider's reaction to a list of project effects, in order. */
  function OnProjectEffects(st: State, effects: seq<Projects.Effect>, valid: bool, lk: Lookups, ds: seq<Report>, configUri: Path): State
    decreases |effects|
  {
    if effects == [] then st
    else
      var next := if effects[0].Fire? then OnProjectEvent(st, effects[0].event, valid, lk, ds, configUri) else st;
      OnProjectEffects(next, effects[1..], valid, lk, ds, configUri)
  }

  /** A verification that leaves validity as it was leaves the diagnostics
      as they were; one that changes it reconciles exactly once, with the
      new validity, unless the provider was disposed. */
  lemma ReconcilesOnlyOnValidityChange(st: State, p: Projects.Project, verify: Projects.Verifier,
                                       lk: Lookups, ds: seq<Report>, configUri: Path)
    ensures var step := Projects.Updated(p, verify);
            var after := OnProjectEffects(st, step.effects, step.project.valid, lk, ds, configUri);
            && (step.project.valid == p.valid || !st.subscribed ==> after == st)
            && (step.project.valid != p.valid && st.subscribed ==> after == Update(st, step.project.valid, lk, ds, configUri))
  {
    var step := Projects.Updated(p, verify);
    var v := step.project.valid;
    if !st.subscribed {
      DisposedIgnoresProject(st, step.effects, v, lk, ds, configUri);
    } else if v == p.valid {
      assert step.effects == [Projects.Fire(Projects.DidUpdate)];
    } else {
      assert step.effects == [Projects.Fire(Projects.DidVerify), Projects.Fire(Projects.DidUpdate)];
      var once := Update(st, v, lk, ds, configUri);
      assert step.effects[1..] == [Projects.Fire(Projects.DidUpdate)];
      assert OnProjectEffects(once, step.effects[1..], v, lk, ds, configUri) == once;
    }
  }

  /** Disposing the provider (as unloading its project does): the
      subscription is dropped, and the entries of every current source of
      the project are cleared, nothing else. The host runs the dispose
      callback only once, so a second dispose does nothing. */
  function Dispose(st: State, projectSources: set<Path>): (r: State)
    ensures !r.subscribed
    ensures !st.subscribed ==> r == st
    ensures st.subscribed ==> forall s :: s in projectSources ==> s !in r.collection
    ensures st.subscribed ==> forall k :: k !in projectSources ==>
              (k in r.collection <==> k in st.collection) && (k in st.collection ==> r.collection[k] == st.collection[k])
  {
    if !st.subscribed then st
    else st.(subscribed := false, collection := st.collection - projectSources)
  }

  /** After dispose no project event reaches the provider: whatever the
      project fires, the diagnostics stay as dispose left them. */
  lemma {:induction false} DisposedIgnoresProject(st: State, effects: seq<Projects.Effect>, valid: bool,
                                                  lk: Lookups, ds: seq<Report>, configUri: Path)
    requires !st.subscribed
    ensures OnProjectEffects(st, effects, valid, lk, ds, configUri) == st
    decreases |effects|
  {
    if effects != [] {
      DisposedIgnoresProject(st, effects[1..], valid, lk, ds, configUri);
    }
  }
}

=== FILE: disposal.dfy ===
/** `disposeAll`: dispose every element of an array, then empty it. */
module Disposal {

  /** Returns the elements in the order they were disposed and what is left
      of the array afterwards. */
  method DisposeAll<D>(target: seq<D>) returns (disposed: seq<D>, remaining: seq<D>)
    ensures disposed == target
    ensures remaining == []
  {
    disposed := [];
    var i := 0;
    while i < |target|
      invariant 0 <= i <= |target|
      invariant disposed == target[..i]
    {
      disposed := disposed + [target[i]];
      i := i + 1;
    }
    assert target[..|target|] == target;
    remaining := [];
  }
}

=== FILE: panel_editor.dfy ===
/** The translation editor panel: it follows a target (a source file and
    the fragment ids selected in it), shows one of three states, forwards
    edits to the target's project and saves modified projects when it
    loses focus. Projects and source files appear as references; whether a
    project is valid, its translation sets and its languages are inputs. */
module PanelEditor {
  import opened Base
  import Projects

  /** A source file instance: its path, its identity and its project. */
  datatype SourceFile = SourceFile(filename: Path, serial: nat, project: ProjectRef)

  /** What the panel edits: a source file and fragment ids in it. */
  datatype Target = Target(sourceFile: SourceFile, ids: seq<Id>)

  type TranslationSets = map<Id, Projects.TranslationSet>

  /** The three states the panel shows. */
  datatype ViewState =
    | NoSelection
    | OutOfSync
    | Edit(translationSets: TranslationSets, languages: seq<Language>)

  /** What the panel asks of a project. */
  datatype ProjectView = ProjectView(
    valid: ProjectRef -> bool,
    translationSets: (ProjectRef, seq<Id>) -> TranslationSets,
    languages: ProjectRef -> seq<Language>)

  /** The panel's state: the target, whether the panel is visible, and
      whether it was active after the last view-state change. */
  datatype Panel = Panel(target: Option<Target>, visible: bool, wasActive: bool)

  datatype Effect =
    | PostState(state: ViewState)
    | Reveal
    | SaveModifiedProjects
    | ForwardEdit(project: ProjectRef, id: Id, language: Language, value: Projects.Value)

  datatype Step = Step(panel: Panel, effects: seq<Effect>)

  /** A new panel: no target, never active. */
  function New(visible: bool): (p: Panel)
    ensures p.target.None? && !p.wasActive && p.visible == visible
  {
    Panel(None, visible, false)
  }

  /** The target after the projects changed: it is dropped when its file
      is no longer known, re-pointed (same ids) when the file is now a
      different source object, and kept otherwise. Afterwards a target, if
      any, always points at the current object for its file. */
  function Retarget(target: Option<Target>, sourceFiles: map<Path, SourceFile>): (r: Option<Target>)
    ensures target.None? ==> r.None?
    ensures target.Some? && target.value.sourceFile.filename !in sourceFiles ==> r.None?
    ensures target.Some? && target.value.sourceFile.filename in sourceFiles ==>
              r == Some(Target(sourceFiles[target.value.sourceFile.filename], target.value.ids))
    ensures (target.Some? && target.value.sourceFile.filename in sourceFiles &&
             sourceFiles[target.value.sourceFile.filename] == target.value.sourceFile) ==> r == target
  {
    match target
    case None => None
    case Some(t) =>
      var name := t.sourceFile.filename;
      if name !in sourceFiles then None
      else if sourceFiles[name] != t.sourceFile then Some(t.(sourceFile := sourceFiles[name]))
      else target
  }

  /** The source files are filed under their own names, as the registry
      files them. */
  ghost predicate Keyed(sourceFiles: map<Path, SourceFile>)
  {
    forall name :: name in sourceFiles ==> sourceFiles[name].filename == name
  }

  /** Against files filed under their own names, a retargeted target points
      at the current object for its file, so retargeting again changes
      nothing. */
  lemma RetargetIdempotent(target: Option<Target>, sourceFiles: map<Path, SourceFile>)
    requires Keyed(sourceFiles)
    ensures var r := Retarget(target, sourceFiles);
            r.Some? ==> r.value.sourceFile.filename in sourceFiles && sourceFiles[r.value.sourceFile.filename] == r.value.sourceFile
    ensures Retarget(Retarget(target, sourceFiles), sourceFiles) == Retarget(target, sourceFiles)
  {
  }

  /** The state shown for a target: no target gives no-selection, a target
      whose project is invalid gives out-of-sync, and otherwise the panel
      edits the target ids' translation sets in the configured languages. */
  function ViewStateFor(target: Option<Target>, pv: ProjectView): (s: ViewState)
    ensures target.None? <==> s.NoSelection?
    ensures s.OutOfSync? <==> target.Some? && !pv.valid(target.value.sourceFile.project)
    ensures s.Edit? ==>
              var project := target.value.sourceFile.project;
              s == Edit(pv.translationSets(project, target.value.ids), pv.languages(project))
  {
    match target
    case None => NoSelection
    case Some(t) =>
      var project := t.sourceFile.project;
      if pv.valid(project) then Edit(pv.translationSets(project, t.ids), pv.languages(project))
      else OutOfSync
  }

  /** `_updateView`: the state is posted only while the panel is visible. */
  function UpdateView(p: Panel, pv: ProjectView): (effects: seq<Effect>)
    ensures !p.visible ==> effects == []
    ensures p.visible ==> effects == [PostState(ViewStateFor(p.target, pv))]
  {
    if p.visible then [PostState(ViewStateFor(p.target, pv))] else []
  }

  /** A change of the projects: retarget, then refresh the view. */
  function OnProjectsUpdate(p: Panel, sourceFiles: map<Path, SourceFile>, pv: ProjectView): (r: Step)
    ensures r.panel == p.(target := Retarget(p.target, sourceFiles))
    ensures r.effects == UpdateView(r.panel, pv)
  {
    var p' := p.(target := Retarget(p.target, sourceFiles));
    Step(p', UpdateView(p', pv))
  }

  /** A message from the webview. */
  datatype Message = SetTranslation(id: Id, lang: Language, value: Projects.Value) | Other

  /** The message handler: a set-translation message goes to the target's
      project when there is a target; everything else is ignored. The
      panel itself never changes. */
  function Receive(p: Panel, message: Message): (r: Step)
    ensures r.panel == p
    ensures |r.effects| <= 1
    ensures r.effects != [] <==> message.SetTranslation? && p.target.Some?
    ensures r.effects != [] ==>
              r.effects[0] == ForwardEdit(p.target.value.sourceFile.project, message.id, message.lang, message.value)
  {
    match message
    case SetTranslation(id, lang, value) =>
      if p.target.Some? then Step(p, [ForwardEdit(p.target.value.sourceFile.project, id, lang, value)])
      else Step(p, [])
    case Other => Step(p, [])
  }

  /** A change of the panel's view state, as the host reports it with the
      panel's activity and visibility now: modified projects are saved
      only if the panel was active before this change. The handler never
      refreshes the view, so a panel shown again keeps whatever state was
      last posted to it. */
  function OnViewStateChange(p: Panel, activeNow: bool, visibleNow: bool): (r: Step)
    ensures r.panel == p.(wasActive := activeNow, visible := visibleNow)
    ensures (SaveModifiedProjects in r.effects) <==> p.wasActive
    ensures |r.effects| <= 1 && forall e <- r.effects :: e == SaveModifiedProjects
    ensures forall e <- r.effects :: !e.PostState?
  {
    Step(p.(wasActive := activeNow, visible := visibleNow), if p.wasActive then [SaveModifiedProjects] else [])
  }

  /** Focus changes in a row: a change saves exactly when the one before
      it left the panel active; the first change of a new panel never saves. */
  lemma SavesWhenLeavingActivePanel(visible: bool, first: bool, second: bool, shown1: bool, shown2: bool)
    ensures OnViewStateChange(New(visible), first, shown1).effects == []
    ensures var after := OnViewStateChange(New(visible), first, shown1).panel;
            (OnViewStateChange(after, second, shown2).effects != []) <==> first
  {
  }

  /** An update that reaches a hidden panel posts nothing, and showing the
      panel again posts nothing either: the webview keeps the state it was
      sent before the update, even when that differs from the new one. */
  lemma HiddenUpdateLeavesStaleState(p: Panel, target: Option<Target>, bringToFront: bool, pv: ProjectView, activeNow: bool)
    requires !p.visible
    ensures var updated := Update(p, target, bringToFront, pv);
            var shown := OnViewStateChange(updated.panel, activeNow, true);
            && (forall e <- updated.effects + shown.effects :: !e.PostState?)
            && shown.panel.visible && shown.panel.target == target
  {
  }

  /** `update`: the target is replaced, the panel is revealed only when
      asked, and the view is always refreshed. Revealing does not make the
      panel visible at once: the host reports the new visibility through
      a later view-state change. */
  function Update(p: Panel, target: Option<Target>, bringToFront: bool, pv: ProjectView): (r: Step)
    ensures r.panel == p.(target := target)
    ensures (Reveal in r.effects) <==> bringToFront
    ensures p.visible ==> PostState(ViewStateFor(target, pv)) in r.effects
    ensures r.effects == (if bringToFront then [Reveal] else []) + UpdateView(r.panel, pv)
  {
    var p' := p.(target := target);
    Step(p', (if bringToFront then [Reveal] else []) + UpdateView(p', pv))
  }
}

=== FILE: project_manager.dfy ===
/** The project registry: a map from configuration file path to the project
    built from it, kept in insertion order like a JavaScript `Map`, plus the
    side map of every source file any project reported, by path. Projects
    are handles here; their behaviour is the `Projects` module's. */
module ProjectManager {
  import opened Base
  import Projects

  /** A project instance. `serial` stands for object identity: a project
      rebuilt for the same configuration file is a different instance. */
  datatype Handle = Handle(serial: nat, configPath: Path, config: Projects.Config)

  datatype Manager = Manager(
    disposed: bool,
    watching: bool,
    projects: map<Path, Handle>,
    order: seq<Path>,
    allSources: map<Path, Projects.Source>,
    nextSerial: nat)

  datatype Effect =
    | Log(line: LogLine)
    | DisposeProject(project: Handle)
    | DidChangeProjects
    | DidChangeProject(project: Handle)
    | DisposeConfigWatcher

  datatype Step = Step(manager: Manager, effects: seq<Effect>)

  /** The registry's invariant: `order` lists each key once, every project
      is filed under its own configuration path, and no two entries share
      an instance. */
  ghost predicate Valid(m: Manager)
  {
    && Distinct(m.order)
    && (forall k :: k in m.projects <==> k in m.order)
    && (forall k :: k in m.projects ==> m.projects[k].configPath == k && m.projects[k].serial < m.nextSerial)
    && (forall k1, k2 :: k1 in m.projects && k2 in m.projects && k1 != k2 ==>
          m.projects[k1].serial != m.projects[k2].serial)
  }

  /** A manager as the constructor leaves it, before its initial scan. */
  function New(): (m: Manager)
    ensures Valid(m) && !m.disposed && !m.watching && m.projects == map[] && m.allSources == map[]
  {
    Manager(false, false, map[], [], map[], 0)
  }

  /** `order` without `path`. */
  function Without(order: seq<Path>, path: Path): (r: seq<Path>)
    ensures forall k :: k in r <==> k in order && k != path
    ensures Distinct(order) ==> Distinct(r)
    ensures path !in order ==> r == order
  {
    if order == [] then []
    else
      assert Distinct(order) ==> Distinct(order[1..]) && order[0] !in order[1..] by {
        if Distinct(order) {
          forall i, j | 0 <= i < j < |order[1..]|
            ensures order[1..][i] != order[1..][j]
          {
            assert order[1..][i] == order[i + 1] && order[1..][j] == order[j + 1];
          }
          forall i | 0 <= i < |order[1..]|
            ensures order[1..][i] != order[0]
          {
            assert order[1..][i] == order[i + 1];
          }
        }
      }
      if order[0] == path then Without(order[1..], path)
      else [order[0]] + Without(order[1..], path)
  }

  /** Removing the only occurrence of a path closes the gap: the paths
      before it and after it keep their relative order. */
  lemma {:induction false} WithoutRemovesAt(order: seq<Path>, path: Path, i: nat)
    requires i < |order| && order[i] == path && path !in order[..i] && path !in order[i + 1..]
    ensures Without(order, path) == order[..i] + order[i + 1..]
    decreases i
  {
    if i == 0 {
      assert order[1..] == order[i + 1..];
    } else {
      assert order[0] != path by {
        assert order[0] == order[..i][0];
      }
      assert order[1..][..i - 1] == order[1..i];
      assert order[1..][i - 1 + 1..] == order[i + 1..];
      assert path !in order[1..][..i - 1] by {
        assert forall k :: k in order[1..i] ==> k in order[..i];
      }
      WithoutRemovesAt(order[1..], path, i - 1);
      assert order[..i] == [order[0]] + order[1..i];
    }
  }

  /** `_removeProject`: an absent path changes nothing and fires nothing.
      A present one loses its entry, its project is disposed and
      `onDidChangeProjects` fires once; the source side map is untouched. */
  function RemoveProject(m: Manager, path: Path): (r: Step)
    ensures path !in m.projects ==> r == Step(m, [])
    ensures path in m.projects ==>
              && r.manager.projects == m.projects - {path}
              && r.manager.allSources == m.allSources
              && |r.effects| > 0
              && r.effects[0] == DisposeProject(m.projects[path])
              && multiset(r.effects)[DisposeProject(m.projects[path])] == 1
              && multiset(r.effects)[DidChangeProjects] == 1
    ensures path in m.projects ==> r.manager.order == Without(m.order, path)
    ensures r.manager == m.(projects := r.manager.projects, order := r.manager.order)
    ensures Valid(m) ==> Valid(r.manager)
  {
    if path !in m.projects then Step(m, [])
    else
      var effects := [DisposeProject(m.projects[path]), Log(Message("Removed project: " + path)), DidChangeProjects];
      Step(m.(projects := m.projects - {path}, order := Without(m.order, path)), effects)
  }

  /** Files a fresh instance under a path that has no entry, last in
      insertion order. */
  function File(m: Manager, path: Path, config: Projects.Config): (r: Manager)
    requires path !in m.projects
    ensures r.projects == m.projects[path := Handle(m.nextSerial, path, config)]
    ensures r.nextSerial == m.nextSerial + 1
    ensures r.order == m.order + [path]
    ensures r == m.(projects := r.projects, order := r.order, nextSerial := r.nextSerial)
    ensures Valid(m) ==> Valid(r)
  {
    var r := m.(projects := m.projects[path := Handle(m.nextSerial, path, config)],
                order := m.order + [path], nextSerial := m.nextSerial + 1);
    assert Valid(m) ==> Distinct(r.order) by {
      if Valid(m) {
        assert path !in m.order;
        forall i, j | 0 <= i < j < |r.order|
          ensures r.order[i] != r.order[j]
        {
          if j == |m.order| {
            assert r.order[i] == m.order[i];
          }
        }
      }
    }
    r
  }

  /** `_updateProject`: whatever was registered for the path is removed
      (and disposed) first. If the configuration reads and parses, a new
      project instance is filed under the path and `onDidChangeProjects`
      fires; otherwise the path ends with no entry and the error is logged.
      No other path and no source entry changes. */
  function UpdateProject(m: Manager, path: Path, config: Result<Projects.Config, IoError>): (r: Step)
    ensures path in m.projects ==> |r.effects| > 0 && r.effects[0] == DisposeProject(m.projects[path])
    ensures config.Err? ==> path !in r.manager.projects && Log(Error(Describe(config.error))) in r.effects
    ensures config.Ok? ==> path in r.manager.projects && r.manager.projects[path] == Handle(m.nextSerial, path, config.value)
    ensures forall k :: k != path ==> (k in r.manager.projects <==> k in m.projects)
    ensures forall k :: k != path && k in m.projects ==> r.manager.projects[k] == m.projects[k]
    ensures r.manager.allSources == m.allSources
    ensures r.manager.disposed == m.disposed && r.manager.watching == m.watching
    ensures var kept := if path in m.projects then Without(m.order, path) else m.order;
            r.manager.order == (if config.Ok? then kept + [path] else kept)
    ensures Valid(m) ==> Valid(r.manager)
  {
    var removed := RemoveProject(m, path);
    var n := removed.manager;
    match config
    case Ok(c) =>
      Step(File(n, path, c), removed.effects + [Log(Message("Updated project: " + path)), DidChangeProjects])
    case Err(e) =>
      Step(n, removed.effects + [Log(Error(Describe(e)))])
  }

  /** A source update reported by a project inserts or overwrites the
      source under its path and fires `onDidChangeProject`. */
  function OnSourceUpdated(m: Manager, project: Handle, source: Projects.Source): (r: Step)
    ensures r.manager.allSources.Keys == m.allSources.Keys + {source.path}
    ensures r.manager.allSources[source.path] == source
    ensures forall q :: q in m.allSources && q != source.path ==> r.manager.allSources[q] == m.allSources[q]
    ensures r.manager == m.(allSources := r.manager.allSources)
    ensures r.effects == [DidChangeProject(project)]
  {
    Step(m.(allSources := m.allSources[source.path := source]), [DidChangeProject(project)])
  }

  /** A source removal reported by a project deletes that path from the
      side map and fires `onDidChangeProject`. */
  function OnSourceRemoved(m: Manager, project: Handle, path: Path): (r: Step)
    ensures r.manager.allSources.Keys == m.allSources.Keys - {path}
    ensures forall q :: q in r.manager.allSources ==> r.manager.allSources[q] == m.allSources[q]
    ensures r.manager == m.(allSources := r.manager.allSources)
    ensures r.effects == [DidChangeProject(project)]
  {
    Step(m.(allSources := m.allSources - {path}), [DidChangeProject(project)])
  }

  /** A data reload reported by a project only fires `onDidChangeProject`. */
  function OnDataUpdated(m: Manager, project: Handle): (r: Step)
    ensures r == Step(m, [DidChangeProject(project)])
  {
    Step(m, [DidChangeProject(project)])
  }

  /** The handles of the projects disposed, in order. */
  function DisposedProjects(effects: seq<Effect>): seq<Handle>
  {
    if effects == [] then []
    else (if effects[0].DisposeProject? then [effects[0].project] else []) + DisposedProjects(effects[1..])
  }

  /** Removes the projects of the given paths, one after another. */
  function RemoveAll(m: Manager, paths: seq<Path>): (r: Step)
    ensures r.manager.projects == m.projects - set k | k in paths
    ensures r.manager.allSources == m.allSources
    ensures r.manager == m.(projects := r.manager.projects, order := r.manager.order)
    ensures Valid(m) ==> Valid(r.manager)
    decreases |paths|
  {
    if paths == [] then Step(m, [])
    else
      var first := RemoveProject(m, paths[0]);
      var rest := RemoveAll(first.manager, paths[1..]);
      Step(rest.manager, first.effects + rest.effects)
  }

  lemma DisposedProjectsAppend(a: seq<Effect>, b: seq<Effect>)
    ensures DisposedProjects(a + b) == DisposedProjects(a) + DisposedProjects(b)
  {
    if a == [] {
      assert a + b == b;
    } else {
      assert (a + b)[0] == a[0] && (a + b)[1..] == a[1..] + b;
      DisposedProjectsAppend(a[1..], b);
    }
  }

  /** Removing a registered path disposes exactly its project. */
  lemma RemoveProjectDisposesOne(m: Manager, path: Path)
    requires path in m.projects
    ensures DisposedProjects(RemoveProject(m, path).effects) == [m.projects[path]]
  {
    var effects := RemoveProject(m, path).effects;
    assert effects[1..] == [Log(Message("Removed project: " + path)), DidChangeProjects];
    assert effects[1..][1..] == [DidChangeProjects] && effects[1..][1..][1..] == [];
    assert DisposedProjects(effects[1..][1..]) == [];
  }

  /** The tail of a list of distinct paths is distinct and lacks its head. */
  lemma DistinctTail(paths: seq<Path>)
    requires Distinct(paths) && paths != []
    ensures Distinct(paths[1..]) && paths[0] !in paths[1..]
  {
    forall i, j | 0 <= i < j < |paths[1..]|
      ensures paths[1..][i] != paths[1..][j]
    {
      assert paths[1..][i] == paths[i + 1] && paths[1..][j] == paths[j + 1];
    }
    forall i | 0 <= i < |paths[1..]|
      ensures paths[1..][i] != paths[0]
    {
      assert paths[1..][i] == paths[i + 1];
    }
  }

  /** The registered handles of a list of paths, in list order. */
  function HandlesOf(projects: map<Path, Handle>, paths: seq<Path>): (r: seq<Handle>)
    requires forall k :: k in paths ==> k in projects
    ensures |r| == |paths|
    ensures forall i :: 0 <= i < |paths| ==> r[i] == projects[paths[i]]
  {
    if paths == [] then [] else [projects[paths[0]]] + HandlesOf(projects, paths[1..])
  }

  /** Two registries that agree on a list of paths give the same handles. */
  lemma HandlesOfAgree(a: map<Path, Handle>, b: map<Path, Handle>, paths: seq<Path>)
    requires forall k :: k in paths ==> k in a && k in b && a[k] == b[k]
    ensures HandlesOf(a, paths) == HandlesOf(b, paths)
  {
  }

  /** Removing a list of distinct registered paths disposes their handles
      in list order. */
  lemma {:induction false} RemoveAllDisposesHandles(m: Manager, paths: seq<Path>)
    requires Distinct(paths)
    requires forall k :: k in paths ==> k in m.projects
    ensures DisposedProjects(RemoveAll(m, paths).effects) == HandlesOf(m.projects, paths)
    decreases |paths|
  {
    if paths != [] {
      var first := RemoveProject(m, paths[0]);
      var n := first.manager;
      var tail := paths[1..];
      DistinctTail(paths);
      assert forall k :: k in tail ==> k in n.projects && n.projects[k] == m.projects[k];
      RemoveAllDisposesHandles(n, tail);
      DisposedProjectsAppend(first.effects, RemoveAll(n, tail).effects);
      RemoveProjectDisposesOne(m, paths[0]);
      HandlesOfAgree(n.projects, m.projects, tail);
    }
  }

  /** Removing a list of distinct registered paths disposes each of their
      projects exactly once, in the order of the list. */
  lemma RemoveAllDisposesInOrder(m: Manager, paths: seq<Path>)
    requires Distinct(paths)
    requires forall k :: k in paths ==> k in m.projects
    ensures var d := DisposedProjects(RemoveAll(m, paths).effects);
            |d| == |paths| && forall i :: 0 <= i < |paths| ==> d[i] == m.projects[paths[i]]
  {
    RemoveAllDisposesHandles(m, paths);
  }

  /** Disposing the manager: the first dispose disposes the configuration
      watcher, if there is one, and removes every project in insertion
      order; the host runs the dispose callback only once. */
  function Dispose(m: Manager): (r: Step)
    ensures m.disposed ==> r == Step(m, [])
    ensures !m.disposed ==> r.manager.disposed && !r.manager.watching && r.manager.allSources == m.allSources
    ensures !m.disposed && Valid(m) ==> r.manager.projects == map[] && Valid(r.manager)
    ensures !m.disposed && m.watching ==> |r.effects| > 0 && r.effects[0] == DisposeConfigWatcher
  {
    if m.disposed then Step(m, [])
    else
      var stopped := if m.watching then [DisposeConfigWatcher] else [];
      var removed := RemoveAll(m.(disposed := true, watching := false), m.order);
      Step(removed.manager, stopped + removed.effects)
  }

  /** Disposing a valid manager disposes every registered project exactly
      once, in insertion order, and leaves the registry empty. */
  lemma DisposeDisposesEveryProject(m: Manager)
    requires Valid(m) && !m.disposed
    ensures var r := Dispose(m);
            && r.manager.projects == map[]
            && |DisposedProjects(r.effects)| == |m.order|
            && forall i :: 0 <= i < |m.order| ==> DisposedProjects(r.effects)[i] == m.projects[m.order[i]]
  {
    var stopped := if m.watching then [DisposeConfigWatcher] else [];
    var n := m.(disposed := true, watching := false);
    var removed := RemoveAll(n, m.order);
    RemoveAllDisposesInOrder(n, m.order);
    DisposedProjectsAppend(stopped, removed.effects);
    assert DisposedProjects(stopped) == [];
  }

  /** The end of the initial scan: the configuration watcher is created
      only if the manager was not disposed meanwhile. */
  function FinishStart(m: Manager): (r: Manager)
    ensures r.watching <==> m.watching || !m.disposed
    ensures r == m.(watching := r.watching)
  {
    if m.disposed then m else m.(watching := true)
  }

  /** A manager disposed before its initial scan finished never watches. */
  lemma DisposedDuringScanNeverWatches(m: Manager, paths: seq<Path>, configs: seq<Result<Projects.Config, IoError>>)
    requires |paths| == |configs|
    requires !m.watching
    ensures !FinishStart(UpdateAll(Dispose(m).manager, paths, configs).manager).watching
  {
    UpdateAllKeepsFlags(Dispose(m).manager, paths, configs);
  }

  /** The initial scan: every configuration file found is loaded. The
      source loads them concurrently; here they are taken one at a time. */
  function UpdateAll(m: Manager, paths: seq<Path>, configs: seq<Result<Projects.Config, IoError>>): (r: Step)
    requires |paths| == |configs|
    ensures Valid(m) ==> Valid(r.manager)
    decreases |paths|
  {
    if paths == [] then Step(m, [])
    else
      var first := UpdateProject(m, paths[0], configs[0]);
      var rest := UpdateAll(first.manager, paths[1..], configs[1..]);
      Step(rest.manager, first.effects + rest.effects)
  }

  lemma {:induction false} UpdateAllKeepsFlags(m: Manager, paths: seq<Path>, configs: seq<Result<Projects.Config, IoError>>)
    requires |paths| == |configs|
    ensures UpdateAll(m, paths, configs).manager.disposed == m.disposed
    ensures UpdateAll(m, paths, configs).manager.watching == m.watching
    decreases |paths|
  {
    if paths != [] {
      UpdateAllKeepsFlags(UpdateProject(m, paths[0], configs[0]).manager, paths[1..], configs[1..]);
    }
  }

  /** `_start`: the initial scan, then the guarded watcher creation. When
      listing the configuration files fails, nothing is loaded, the error
      goes to the output, and the configuration watcher is never created. */
  function Start(m: Manager, listError: Option<IoError>, paths: seq<Path>, configs: seq<Result<Projects.Config, IoError>>): (r: Step)
    requires |paths| == |configs|
    ensures Valid(m) ==> Valid(r.manager)
    ensures listError.Some? ==> r == Step(m, [Log(Error(Describe(listError.value)))])
    ensures listError.None? ==>
              forall i :: 0 <= i < |paths| && configs[i].Err? && paths[i] !in paths[i + 1..] ==> paths[i] !in r.manager.projects
    ensures listError.None? ==>
              forall i :: 0 <= i < |paths| && configs[i].Ok? && paths[i] !in paths[i + 1..] ==>
                paths[i] in r.manager.projects && r.manager.projects[paths[i]].config == configs[i].value
    ensures listError.None? ==> forall k :: k !in paths ==> (k in r.manager.projects <==> k in m.projects)
    ensures listError.None? ==> (r.manager.watching <==> m.watching || !m.disposed)
  {
    match listError
    case Some(e) => Step(m, [Log(Error(Describe(e)))])
    case None =>
      var scanned := UpdateAll(m, paths, configs);
      UpdateAllLastWins(m, paths, configs);
      UpdateAllLastOk(m, paths, configs);
      UpdateAllUntouched(m, paths, configs);
      UpdateAllKeepsFlags(m, paths, configs);
      Step(FinishStart(scanned.manager), scanned.effects)
  }

  /** A path whose last configuration in the scan fails has no entry. */
  lemma {:induction false} UpdateAllLastWins(m: Manager, paths: seq<Path>, configs: seq<Result<Projects.Config, IoError>>)
    requires |paths| == |configs|
    ensures forall i :: 0 <= i < |paths| && configs[i].Err? && paths[i] !in paths[i + 1..] ==>
              paths[i] !in UpdateAll(m, paths, configs).manager.projects
    decreases |paths|
  {
    if paths != [] {
      var first := UpdateProject(m, paths[0], configs[0]);
      UpdateAllLastWins(first.manager, paths[1..], configs[1..]);
      UpdateAllUntouched(first.manager, paths[1..], configs[1..]);
      forall i | 0 <= i < |paths| && configs[i].Err? && paths[i] !in paths[i + 1..]
        ensures paths[i] !in UpdateAll(m, paths, configs).manager.projects
      {
        if i > 0 {
          assert paths[1..][i - 1] == paths[i] && configs[1..][i - 1] == configs[i];
          assert paths[1..][i..] == paths[i + 1..];
        }
      }
    }
  }

  /** A path whose last configuration in the scan reads and parses is
      registered with that configuration. */
  lemma {:induction false} UpdateAllLastOk(m: Manager, paths: seq<Path>, configs: seq<Result<Projects.Config, IoError>>)
    requires |paths| == |configs|
    ensures forall i :: 0 <= i < |paths| && configs[i].Ok? && paths[i] !in paths[i + 1..] ==>
              && paths[i] in UpdateAll(m, paths, configs).manager.projects
              && UpdateAll(m, paths, configs).manager.projects[paths[i]].config == configs[i].value
    decreases |paths|
  {
    if paths != [] {
      var first := UpdateProject(m, paths[0], configs[0]);
      UpdateAllLastOk(first.manager, paths[1..], configs[1..]);
      UpdateAllUntouched(first.manager, paths[1..], configs[1..]);
      forall i | 0 <= i < |paths| && configs[i].Ok? && paths[i] !in paths[i + 1..]
        ensures && paths[i] in UpdateAll(m, paths, configs).manager.projects
                && UpdateAll(m, paths, configs).manager.projects[paths[i]].config == configs[i].value
      {
        if i > 0 {
          assert paths[1..][i - 1] == paths[i] && configs[1..][i - 1] == configs[i];
          assert paths[1..][i..] == paths[i + 1..];
        }
      }
    }
  }

  /** A path the scan does not mention keeps its entry, with the same
      instance. */
  lemma {:induction false} UpdateAllUntouched(m: Manager, paths: seq<Path>, configs: seq<Result<Projects.Config, IoError>>)
    requires |paths| == |configs|
    ensures forall k :: k !in paths ==>
              (k in UpdateAll(m, paths, configs).manager.projects <==> k in m.projects)
    ensures forall k :: k !in paths && k in m.projects ==>
              UpdateAll(m, paths, configs).manager.projects[k] == m.projects[k]
    decreases |paths|
  {
    if paths != [] {
      var first := UpdateProject(m, paths[0], configs[0]);
      UpdateAllUntouched(first.manager, paths[1..], configs[1..]);
    }
  }

  /** What the configuration watcher reports. */
  datatype ConfigEvent = Created(path: Path) | Changed(path: Path) | Deleted(path: Path)

  /** The configuration watcher's handlers: a created or changed file is
      (re)loaded, a deleted one removed. Without a watcher nothing arrives. */
  function HandleConfigEvent(m: Manager, event: ConfigEvent, config: Result<Projects.Config, IoError>): (r: Step)
    ensures !m.watching ==> r == Step(m, [])
    ensures m.watching && event.Deleted? ==> r == RemoveProject(m, event.path)
    ensures m.watching && !event.Deleted? ==> r == UpdateProject(m, event.path, config)
    ensures Valid(m) ==> Valid(r.manager)
  {
    if !m.watching then Step(m, [])
    else
      match event
      case Deleted(path) => RemoveProject(m, path)
      case _ => UpdateProject(m, event.path, config)
  }

  /** A load that resumes after the manager was disposed still files its
      project: nothing in `_updateProject` checks for disposal. */
  lemma LoadAfterDisposeStillRegisters(m: Manager, path: Path, config: Projects.Config)
    requires !m.disposed
    ensures var r := UpdateProject(Dispose(m).manager, path, Ok(config)).manager;
            r.disposed && path in r.projects
  {
  }
}

=== FILE: projects.dfy ===
/** One i18n project: its configuration, its translation data, the source
    files found for it, the `valid` and `dirty` flags and the file watchers
    registered once loading has finished. The tooling library's project
    object is reduced to the data and the source map it keeps; `verify`,
    reads, writes and parses are inputs. Every operation returns the new
    project together with the ordered effects it had: events fired, lines
    logged, files written, watchers disposed. */
module Projects {
  import opened Base

  /** `Project.Data.now()`: a timestamp, as the library formats it. */
  type Stamp = string

  /** A translation value, as stored in the project data. */
  type Value = string

  datatype Translation = Translation(lastModified: Stamp, value: Value)

  /** The translations of one fragment, keyed by language. */
  datatype TranslationSet = TranslationSet(value: Value, translations: map<Language, Translation>)

  /** The project data: translation sets by fragment id. */
  type Data = map<Id, TranslationSet>

  /** One source file as read for the project. */
  datatype Source = Source(path: Path, text: string)

  /** The part of the parsed configuration the project uses: the directory
      it lives in, the data file and the source glob patterns. */
  datatype Config = Config(context: Path, projectData: Path, sources: seq<string>, languages: seq<Language>)

  /** The watchers a started project registers. */
  datatype Watcher = DataWatcher | SourceWatcher(pattern: string)

  datatype Project = Project(
    config: Config,
    disposed: bool,
    valid: bool,
    dirty: bool,
    data: Data,
    sources: map<Path, Source>,
    watchers: seq<Watcher>)

  /** The events a project fires. */
  datatype Event =
    | DidUpdateProjectData
    | DidUpdateSource(source: Source)
    | DidRemoveSource(path: Path)
    | DidVerify
    | DidUpdate
    | DidEdit

  datatype Effect =
    | Fire(event: Event)
    | Log(line: LogLine)
    | Write(path: Path, data: Data)
    | DisposeWatcher(watcher: Watcher)
    | Raise(error: IoError)

  datatype Step = Step(project: Project, effects: seq<Effect>)

  /** The library's consistency check of data against sources. */
  type Verifier = (Data, map<Path, Source>) -> bool

  /** Runs `f` after `s`, concatenating the effects. */
  function Then(s: Step, f: Project -> Step): (r: Step)
    ensures r.project == f(s.project).project
    ensures r.effects == s.effects + f(s.project).effects
  {
    var t := f(s.project);
    Step(t.project, s.effects + t.effects)
  }

  /** A project as the constructor leaves it: not valid, not dirty, not
      disposed, nothing loaded and nothing watched. */
  function New(config: Config): (p: Project)
    ensures !p.valid && !p.dirty && !p.disposed
    ensures p.config == config && p.data == map[] && p.sources == map[] && p.watchers == []
  {
    Project(config, false, false, false, map[], map[], [])
  }

  /** `setTranslation`: an id without a translation set changes nothing and
      fires nothing; otherwise the project becomes dirty, exactly the given
      language of that set is overwritten with the value stamped `now`, and
      `onDidEdit` fires once. */
  function SetTranslation(p: Project, id: Id, language: Language, value: Value, now: Stamp): (r: Step)
    ensures id !in p.data ==> r == Step(p, [])
    ensures id in p.data ==>
              && r.project.dirty
              && r.effects == [Fire(DidEdit)]
              && r.project.data.Keys == p.data.Keys
              && r.project.data[id].translations.Keys == p.data[id].translations.Keys + {language}
              && r.project.data[id].translations[language] == Translation(now, value)
              && r.project.data[id].value == p.data[id].value
              && (forall l :: l in p.data[id].translations && l != language ==>
                    r.project.data[id].translations[l] == p.data[id].translations[l])
              && (forall other :: other in p.data && other != id ==> r.project.data[other] == p.data[other])
              && r.project == p.(dirty := true, data := r.project.data)
  {
    if id !in p.data then Step(p, [])
    else
      var entry := p.data[id];
      var edited := entry.(translations := entry.translations[language := Translation(now, value)]);
      Step(p.(dirty := true, data := p.data[id := edited]), [Fire(DidEdit)])
  }

  /** `saveChanges`: a clean project writes nothing. A dirty one logs, then
      writes its data to the data file once; only a successful write clears
      `dirty`, and a failed one is raised to the caller. */
  function SaveChanges(p: Project, write: Option<IoError>): (r: Step)
    ensures !p.dirty ==> r == Step(p, [])
    ensures p.dirty ==>
              && Write(p.config.projectData, p.data) in r.effects
              && (forall e :: e in r.effects && e.Write? ==> e == Write(p.config.projectData, p.data))
              && r.project == p.(dirty := write.Some?)
              && (write.Some? ==> Raise(write.value) in r.effects)
              && (write.None? ==> forall e :: e in r.effects ==> !e.Raise?)
    ensures p.dirty ==> Writes(r.effects) == 1
  {
    if !p.dirty then Step(p, [])
    else
      var written := [Log(Message("Applied changes to: " + p.config.projectData)),
                      Write(p.config.projectData, p.data)];
      assert Writes(written) == Writes(written[1..]) == 1 + Writes(written[1..][1..]) == 1;
      match write
      case None => Step(p.(dirty := false), written)
      case Some(e) =>
        var effects := written + [Raise(e)];
        assert effects[1..] == [written[1], Raise(e)] && effects[1..][1..] == [Raise(e)];
        assert Writes(effects) == Writes(effects[1..]) == 1 + Writes(effects[1..][1..]) == 1;
        Step(p, effects)
  }

  /** The number of writes among a list of effects. */
  function Writes(effects: seq<Effect>): nat
  {
    if effects == [] then 0
    else (if effects[0].Write? then 1 else 0) + Writes(effects[1..])
  }

  /** The edit, save, clean cycle: an edit of a known fragment makes the
      project dirty, a successful save then writes exactly once, carrying the
      edit, and leaves it clean; a second save with no edit in between
      writes nothing. */
  lemma EditSaveCycle(p: Project, id: Id, language: Language, value: Value, now: Stamp)
    requires id in p.data
    ensures var edited := SetTranslation(p, id, language, value, now).project;
            var saved := SaveChanges(edited, None);
            && edited.dirty
            && Writes(saved.effects) == 1
            && Write(p.config.projectData, edited.data) in saved.effects
            && edited.data[id].translations[language] == Translation(now, value)
            && !saved.project.dirty
            && SaveChanges(saved.project, None).effects == []
  {
    var edited := SetTranslation(p, id, language, value, now).project;
    var saved := SaveChanges(edited, None);
    assert saved.effects == [Log(Message("Applied changes to: " + p.config.projectData)),
                             Write(p.config.projectData, edited.data)];
    assert Writes(saved.effects) == Writes(saved.effects[1..]) == 1;
  }

  /** `_updateProjectData`: reloading while dirty logs a warning but keeps
      `dirty`. A successful read replaces the data wholesale, logs and fires
      `onDidUpdateProjectData`; a failed read or parse keeps the data, is
      silent for a missing file and logged for any other error. */
  function UpdateProjectData(p: Project, read: Result<Data, IoError>): (r: Step)
    ensures r.project.dirty == p.dirty
    ensures read.Ok? ==> r.project == p.(data := read.value)
    ensures read.Err? ==> r.project == p
    ensures (Fire(DidUpdateProjectData) in r.effects) <==> read.Ok?
    ensures p.dirty ==> |r.effects| > 0 && r.effects[0].Log? && r.effects[0].line.Warn?
    ensures forall e <- r.effects :: e.Log? && e.line.Warn? ==> p.dirty
    ensures read.Err? && read.error != FileNotFound ==> Log(Error(Describe(read.error))) in r.effects
    ensures forall e <- r.effects :: e.Log? && e.line.Error? ==> read.Err? && read.error != FileNotFound
    ensures read == Err(FileNotFound) && !p.dirty ==> r == Step(p, [])
    ensures forall e <- r.effects :: e.Fire? ==> e.event == DidUpdateProjectData
  {
    var warning := if p.dirty then [Log(Warn("Project data has changed while you were editing: " + p.config.projectData))] else [];
    assert forall e <- warning :: e.Log? && e.line.Warn?;
    match read
    case Ok(data) =>
      var rest := [Log(Message("Updated data: " + p.config.projectData)), Fire(DidUpdateProjectData)];
      assert forall e <- rest :: !(e.Log? && e.line.Warn?) && !(e.Log? && e.line.Error?);
      Step(p.(data := data), warning + rest)
    case Err(e) =>
      var rest := if e == FileNotFound then [] else [Log(Error(Describe(e)))];
      assert forall x <- rest :: x.Log? && x.line.Error?;
      Step(p, warning + rest)
  }

  /** `_updateSource`: a successful read inserts or replaces the source at
      its path, logs and fires `onDidUpdateSource` with it; a failure is
      logged and leaves the source map as it was. */
  function UpdateSource(p: Project, path: Path, read: Result<string, IoError>): (r: Step)
    ensures read.Err? ==> r.project == p && r.effects == [Log(Error(Describe(read.error)))]
    ensures read.Ok? ==>
              && r.project == p.(sources := p.sources[path := Source(path, read.value)])
              && |r.effects| > 0
              && r.effects[|r.effects| - 1] == Fire(DidUpdateSource(Source(path, read.value)))
    ensures forall e <- r.effects :: e.Fire? ==> e.event.DidUpdateSource?
  {
    match read
    case Ok(text) =>
      var source := Source(path, text);
      Step(p.(sources := p.sources[path := source]), [Log(Message("Updated source: " + path)), Fire(DidUpdateSource(source))])
    case Err(e) => Step(p, [Log(Error(Describe(e)))])
  }

  /** `_removeSource`: deletes exactly that path, logs and fires
      `onDidRemoveSource` with the path. */
  function RemoveSource(p: Project, path: Path): (r: Step)
    ensures r.project.sources.Keys == p.sources.Keys - {path}
    ensures forall q :: q in r.project.sources ==> r.project.sources[q] == p.sources[q]
    ensures r.project == p.(sources := r.project.sources)
    ensures |r.effects| > 0 && r.effects[|r.effects| - 1] == Fire(DidRemoveSource(path))
  {
    Step(p.(sources := p.sources - {path}), [Log(Message("Removed source: " + path)), Fire(DidRemoveSource(path))])
  }

  /** The number of times an event is fired among a list of effects. */
  function Fired(effects: seq<Effect>, event: Event): nat
  {
    if effects == [] then 0
    else (if effects[0] == Fire(event) then 1 else 0) + Fired(effects[1..], event)
  }

  /** `_updated`: `valid` becomes the library's verdict; `onDidVerify`
      fires only when that changed it, `onDidUpdate` fires on every call. */
  function Updated(p: Project, verify: Verifier): (r: Step)
    ensures r.project == p.(valid := verify(p.data, p.sources))
    ensures Fired(r.effects, DidVerify) == (if r.project.valid != p.valid then 1 else 0)
    ensures Fired(r.effects, DidUpdate) == 1
    ensures |r.effects| > 0 && r.effects[|r.effects| - 1] == Fire(DidUpdate)
  {
    var valid := verify(p.data, p.sources);
    if valid != p.valid then
      var effects := [Fire(DidVerify), Fire(DidUpdate)];
      assert Fired(effects, DidVerify) == 1 + Fired(effects[1..], DidVerify);
      Step(p.(valid := valid), effects)
    else
      var effects := [Fire(DidUpdate)];
      assert Fired(effects, DidVerify) == Fired(effects[1..], DidVerify);
      Step(p, effects)
  }

  /** Verifying twice with nothing changed in between does not fire
      `onDidVerify` the second time. */
  lemma UpdatedTwiceFiresVerifyOnce(p: Project, verify: Verifier)
    ensures var once := Updated(p, verify);
            Fired(Updated(once.project, verify).effects, DidVerify) == 0
  {
  }

  /** A file found during loading: its path and the result of reading it. */
  datatype Found = Found(path: Path, read: Result<string, IoError>)

  /** The found file at index `i` is the last one at its path that loads:
      it is a source file read successfully, and every later file at the
      same path fails to read. */
  ghost predicate LastLoad(files: seq<Found>, i: nat, isSourceFile: Path -> bool)
    requires i < |files|
  {
    && isSourceFile(files[i].path)
    && files[i].read.Ok?
    && forall j :: i < j < |files| && files[j].path == files[i].path ==> files[j].read.Err?
  }

  /** No found file at path `q` loads. */
  ghost predicate NeverLoads(files: seq<Found>, q: Path, isSourceFile: Path -> bool)
  {
    forall i :: 0 <= i < |files| && files[i].path == q && isSourceFile(q) ==> files[i].read.Err?
  }

  /** Loads every found file that the library accepts as a source. */
  function UpdateSources(p: Project, files: seq<Found>, isSourceFile: Path -> bool): (r: Step)
    ensures r.project == p.(sources := r.project.sources)
    ensures p.sources.Keys <= r.project.sources.Keys
    ensures forall q :: q in r.project.sources && q !in p.sources ==>
              isSourceFile(q) && exists f :: f in files && f.path == q
    ensures forall i :: 0 <= i < |files| && isSourceFile(files[i].path) && files[i].read.Ok? ==>
              files[i].path in r.project.sources
    ensures forall e <- r.effects :: e.Fire? ==> e.event.DidUpdateSource?
    decreases |files|
  {
    if files == [] then Step(p, [])
    else
      var f := files[0];
      var first := if isSourceFile(f.path) then UpdateSource(p, f.path, f.read) else Step(p, []);
      var r := Then(first, q => UpdateSources(q, files[1..], isSourceFile));
      assert forall i :: 1 <= i < |files| ==> files[i] == files[1..][i - 1];
      r
  }

  /** A known source that no found file replaces keeps its text. */
  lemma {:induction false} UpdateSourcesKeepsText(p: Project, files: seq<Found>, isSourceFile: Path -> bool, k: Path)
    requires k in p.sources && NeverLoads(files, k, isSourceFile)
    ensures UpdateSources(p, files, isSourceFile).project.sources[k] == p.sources[k]
    decreases |files|
  {
    if files != [] {
      var f := files[0];
      var tail := files[1..];
      var q := (if isSourceFile(f.path) then UpdateSource(p, f.path, f.read) else Step(p, [])).project;
      assert UpdateSources(p, files, isSourceFile).project == UpdateSources(q, tail, isSourceFile).project;
      assert k in q.sources && q.sources[k] == p.sources[k];
      assert NeverLoads(tail, k, isSourceFile) by {
        forall i | 0 <= i < |tail| && tail[i].path == k && isSourceFile(k)
          ensures tail[i].read.Err?
        {
          assert tail[i] == files[i + 1];
        }
      }
      UpdateSourcesKeepsText(q, tail, isSourceFile, k);
    }
  }

  /** A path holds the text of the last found file there that loads. */
  lemma {:induction false} UpdateSourcesLastLoadWins(p: Project, files: seq<Found>, isSourceFile: Path -> bool, i: nat)
    requires i < |files| && LastLoad(files, i, isSourceFile)
    ensures UpdateSources(p, files, isSourceFile).project.sources[files[i].path] == Source(files[i].path, files[i].read.value)
    decreases |files|
  {
    var f := files[0];
    var tail := files[1..];
    var q := (if isSourceFile(f.path) then UpdateSource(p, f.path, f.read) else Step(p, [])).project;
    assert UpdateSources(p, files, isSourceFile).project == UpdateSources(q, tail, isSourceFile).project;
    if i == 0 {
      assert NeverLoads(tail, f.path, isSourceFile) by {
        forall j | 0 <= j < |tail| && tail[j].path == f.path && isSourceFile(f.path)
          ensures tail[j].read.Err?
        {
          assert tail[j] == files[j + 1];
        }
      }
      UpdateSourcesKeepsText(q, tail, isSourceFile, f.path);
    } else {
      assert files[i] == tail[i - 1];
      assert LastLoad(tail, i - 1, isSourceFile) by {
        forall j | i - 1 < j < |tail| && tail[j].path == tail[i - 1].path
          ensures tail[j].read.Err?
        {
          assert tail[j] == files[j + 1];
        }
      }
      UpdateSourcesLastLoadWins(q, tail, isSourceFile, i - 1);
    }
  }

  /** The texts loading leaves, for every path at once. */
  lemma UpdateSourcesTexts(p: Project, files: seq<Found>, isSourceFile: Path -> bool)
    ensures var r := UpdateSources(p, files, isSourceFile).project;
            forall q :: q in p.sources && NeverLoads(files, q, isSourceFile) ==> r.sources[q] == p.sources[q]
    ensures var r := UpdateSources(p, files, isSourceFile).project;
            forall i :: 0 <= i < |files| && LastLoad(files, i, isSourceFile) ==>
              r.sources[files[i].path] == Source(files[i].path, files[i].read.value)
  {
    forall q | q in p.sources && NeverLoads(files, q, isSourceFile)
      ensures UpdateSources(p, files, isSourceFile).project.sources[q] == p.sources[q]
    {
      UpdateSourcesKeepsText(p, files, isSourceFile, q);
    }
    forall i | 0 <= i < |files| && LastLoad(files, i, isSourceFile)
      ensures UpdateSources(p, files, isSourceFile).project.sources[files[i].path] == Source(files[i].path, files[i].read.value)
    {
      UpdateSourcesLastLoadWins(p, files, isSourceFile, i);
    }
  }

  /** The loading half of `_start`: read the data, load every matching
      source (the files of all patterns, pattern by pattern), then verify. */
  function Load(p: Project, data: Result<Data, IoError>, files: seq<Found>, isSourceFile: Path -> bool, verify: Verifier): (r: Step)
    ensures r.project.disposed == p.disposed && r.project.dirty == p.dirty && r.project.watchers == p.watchers
    ensures r.project.valid == verify(r.project.data, r.project.sources)
    ensures data.Ok? ==> r.project.data == data.value
    ensures data.Err? ==> r.project.data == p.data
    ensures p.sources.Keys <= r.project.sources.Keys
    ensures forall i :: 0 <= i < |files| && isSourceFile(files[i].path) && files[i].read.Ok? ==>
              files[i].path in r.project.sources
    ensures forall q :: q in r.project.sources && q !in p.sources ==>
              isSourceFile(q) && exists f :: f in files && f.path == q
    ensures forall q :: q in p.sources && NeverLoads(files, q, isSourceFile) ==> r.project.sources[q] == p.sources[q]
    ensures forall i :: 0 <= i < |files| && LastLoad(files, i, isSourceFile) ==>
              r.project.sources[files[i].path] == Source(files[i].path, files[i].read.value)
  {
    UpdateSourcesTexts(UpdateProjectData(p, data).project, files, isSourceFile);
    Then(Then(UpdateProjectData(p, data), q => UpdateSources(q, files, isSourceFile)), q => Updated(q, verify))
  }

  /** One source watcher per pattern, in the order of the patterns. */
  function SourceWatchers(patterns: seq<string>): (ws: seq<Watcher>)
    ensures |ws| == |patterns|
    ensures forall i :: 0 <= i < |patterns| ==> ws[i] == SourceWatcher(patterns[i])
    ensures forall pattern :: pattern in patterns ==> SourceWatcher(pattern) in ws
  {
    if patterns == [] then []
    else [SourceWatcher(patterns[0])] + SourceWatchers(patterns[1..])
  }

  /** The watcher half of `_start`: only a project that was not disposed
      while loading registers its watchers, one for the data file and one
      per source pattern. */
  function RegisterWatchers(p: Project): (r: Step)
    ensures r.effects == []
    ensures p.disposed ==> r.project == p
    ensures !p.disposed ==>
              && r.project == p.(watchers := r.project.watchers)
              && |r.project.watchers| == |p.watchers| + 1 + |p.config.sources|
              && r.project.watchers[..|p.watchers|] == p.watchers
              && r.project.watchers[|p.watchers|] == DataWatcher
              && forall pattern :: pattern in p.config.sources ==> SourceWatcher(pattern) in r.project.watchers
  {
    if p.disposed then Step(p, [])
    else
      var added := SourceWatchers(p.config.sources);
      Step(p.(watchers := p.watchers + [DataWatcher] + added), [])
  }

  /** `_start` as a whole. Without a listing error it loads, verifies and
      then registers the watchers unless the project was disposed
      meanwhile. When listing the files of a pattern fails, the files
      listed before are loaded, the error goes to the output, and the
      project is neither verified nor watched: it stays invalid until it
      is replaced. */
  function Start(p: Project, data: Result<Data, IoError>, files: seq<Found>, listError: Option<IoError>,
                 isSourceFile: Path -> bool, verify: Verifier): (r: Step)
    ensures r.project.disposed == p.disposed && r.project.dirty == p.dirty
    ensures data.Ok? ==> r.project.data == data.value
    ensures data.Err? ==> r.project.data == p.data
    ensures forall i :: 0 <= i < |files| && isSourceFile(files[i].path) && files[i].read.Ok? ==>
              files[i].path in r.project.sources
    ensures listError.None? ==> r.project.valid == verify(r.project.data, r.project.sources)
    ensures listError.None? && p.disposed ==> r.project.watchers == p.watchers
    ensures listError.None? && !p.disposed ==>
              && |r.project.watchers| == |p.watchers| + 1 + |p.config.sources|
              && r.project.watchers[|p.watchers|] == DataWatcher
    ensures listError.Some? ==>
              && r.project.valid == p.valid
              && r.project.watchers == p.watchers
              && |r.effects| > 0 && r.effects[|r.effects| - 1] == Log(Error(Describe(listError.value)))
              && forall e <- r.effects :: e.Fire? ==> e.event == DidUpdateProjectData || e.event.DidUpdateSource?
  {
    match listError
    case None =>
      var loaded := Load(p, data, files, isSourceFile, verify);
      Then(loaded, RegisterWatchers)
    case Some(e) =>
      var listed := Then(UpdateProjectData(p, data), q => UpdateSources(q, files, isSourceFile));
      Step(listed.project, listed.effects + [Log(Error(Describe(e)))])
  }

  /** Disposing the project: the first dispose marks it disposed and
      disposes every watcher, in order; the host runs the dispose callback
      only once, so a second dispose does nothing. */
  function Dispose(p: Project): (r: Step)
    ensures p.disposed ==> r == Step(p, [])
    ensures !p.disposed ==>
              && r.project == p.(disposed := true)
              && |r.effects| == |p.watchers|
              && forall i :: 0 <= i < |p.watchers| ==> r.effects[i] == DisposeWatcher(p.watchers[i])
  {
    if p.disposed then Step(p, [])
    else Step(p.(disposed := true), seq(|p.watchers|, i requires 0 <= i < |p.watchers| => DisposeWatcher(p.watchers[i])))
  }

  /** A project disposed before its startup finished never registers a
      watcher, and its disposal had none to dispose. */
  lemma DisposedDuringStartupWatchesNothing(config: Config, data: Result<Data, IoError>, files: seq<Found>,
                                            isSourceFile: Path -> bool, verify: Verifier)
    ensures var disposed := Dispose(New(config));
            && disposed.effects == []
            && RegisterWatchers(Load(disposed.project, data, files, isSourceFile, verify).project).project.watchers == []
  {
  }

  /** What a registered watcher reports. */
  datatype FsEvent =
    | Changed(path: Path)
    | Created(path: Path)
    | Deleted(path: Path)

  /** The watchers' handlers. A change of the data file reloads the data
      and verifies; a creation or change of a source file reloads it and
      verifies; a deletion removes it and verifies. Other files and other
      events are ignored. Events arrive only through live watchers, so a
      project that is disposed or has registered none sees nothing.
      `dataRead` and `sourceRead` are the results of the reads the handlers
      would make. */
  function HandleFsEvent(p: Project, event: FsEvent, dataRead: Result<Data, IoError>, sourceRead: Result<string, IoError>,
                         isSourceFile: Path -> bool, verify: Verifier): (r: Step)
    ensures p.disposed || p.watchers == [] ==> r == Step(p, [])
    ensures !p.disposed && p.watchers != [] && event.Changed? && event.path == p.config.projectData && !isSourceFile(event.path) ==>
              r == Then(UpdateProjectData(p, dataRead), q => Updated(q, verify))
    ensures !(event.Changed? && event.path == p.config.projectData) && !isSourceFile(event.path) ==> r == Step(p, [])
    ensures !p.disposed && p.watchers != [] && event.Deleted? && isSourceFile(event.path) ==> event.path !in r.project.sources
    ensures !p.disposed && p.watchers != [] && isSourceFile(event.path) && !event.Deleted? && sourceRead.Ok? ==>
              event.path in r.project.sources && r.project.sources[event.path] == Source(event.path, sourceRead.value)
    ensures !p.disposed && p.watchers != [] && isSourceFile(event.path) ==>
              r.project.valid == verify(r.project.data, r.project.sources)
    ensures !p.disposed && p.watchers != [] && isSourceFile(event.path) && event.Deleted? ==>
              r.project.sources == p.sources - {event.path}
    ensures !p.disposed && p.watchers != [] && isSourceFile(event.path) && !event.Deleted? && sourceRead.Err? ==>
              r.project.sources == p.sources
    ensures !p.disposed && p.watchers != [] && isSourceFile(event.path) && !event.Deleted? && sourceRead.Ok? ==>
              r.project.sources == p.sources[event.path := Source(event.path, sourceRead.value)]
    ensures !(event.Changed? && event.path == p.config.projectData) ==> r.project.data == p.data
    ensures p.valid == verify(p.data, p.sources) ==> r.project.valid == verify(r.project.data, r.project.sources)
    ensures r.project.dirty == p.dirty && r.project.disposed == p.disposed
  {
    if p.disposed || p.watchers == [] then Step(p, [])
    else
      var fromData := if event.Changed? && event.path == p.config.projectData
                      then Then(UpdateProjectData(p, dataRead), q => Updated(q, verify))
                      else Step(p, []);
      if !isSourceFile(event.path) then fromData
      else
        var q := fromData.project;
        var changed := if event.Deleted? then RemoveSource(q, event.path) else UpdateSource(q, event.path, sourceRead);
        var verified := Updated(changed.project, verify);
        Step(verified.project, fromData.effects + changed.effects + verified.effects)
  }

  /** One delivery of a watcher: the event and the results of the reads
      its handler would make. */
  datatype Delivery = Delivery(event: FsEvent, dataRead: Result<Data, IoError>, sourceRead: Result<string, IoError>)

  /** The project after handling a series of deliveries, one at a time. */
  function HandleAll(p: Project, ds: seq<Delivery>, isSourceFile: Path -> bool, verify: Verifier): Project
    decreases |ds|
  {
    if ds == [] then p
    else
      var q := HandleFsEvent(p, ds[0].event, ds[0].dataRead, ds[0].sourceRead, isSourceFile, verify).project;
      HandleAll(q, ds[1..], isSourceFile, verify)
  }

  /** A loaded project keeps its validity flag in step with the library's
      verdict on its current data and sources, whatever its watchers
      report afterwards; disposal and `dirty` are untouched. */
  lemma {:induction false} WatchedProjectStaysVerified(p: Project, ds: seq<Delivery>, isSourceFile: Path -> bool, verify: Verifier)
    requires p.valid == verify(p.data, p.sources)
    ensures var q := HandleAll(p, ds, isSourceFile, verify);
            q.valid == verify(q.data, q.sources) && q.dirty == p.dirty && q.disposed == p.disposed
    decreases |ds|
  {
    if ds != [] {
      var q := HandleFsEvent(p, ds[0].event, ds[0].dataRead, ds[0].sourceRead, isSourceFile, verify).project;
      WatchedProjectStaysVerified(q, ds[1..], isSourceFile, verify);
    }
  }
}

=== FILE: rate_limit.dfy ===
/** The leading-edge rate limiter that wraps an action. Both copies in the
    extension share this logic: the older one (default delay 300) lets an
    exception from the action escape, the newer one (default delay 100)
    hands it to an optional `onError` handler. Time is an explicit input;
    a pending `setTimeout` is a stored deferred call that a separate `Fire`
    step runs. */
module RateLimit {
  import opened Base

  /** The end of the current window. It starts at minus infinity, so the
      first call always runs at once. */
  datatype Bound = NegInfinity | At(time: int)

  /** `now > nextImmediate` */
  predicate After(now: int, b: Bound)
  {
    b.NegInfinity? || now > b.time
  }

  /** The limiter's parameters: the window length and whether an `onError`
      handler was given. */
  datatype Config = Config(delay: int, hasOnError: bool)

  /** The older limiter: default delay, no error handling. */
  const PlainConfig: Config := Config(300, false)

  /** The newer limiter as `useRateLimit` installs it: default delay and
      always an `onError` handler. */
  const DecoratorConfig: Config := Config(100, true)

  /** A scheduled call: the time it was made, the time the timer is due
      and the arguments of the call that scheduled it. */
  datatype Deferred<A> = Deferred(scheduledAt: int, due: int, args: A)

  /** The closure's state: the pending timer, if any, and `nextImmediate`. */
  datatype Limiter<A> = Limiter(timer: Option<Deferred<A>>, nextImmediate: Bound)

  /** A fresh limiter: no timer, window at minus infinity. */
  function Initial<A>(): (s: Limiter<A>)
    ensures s.timer.None? && forall now :: After(now, s.nextImmediate)
  {
    Limiter(None, NegInfinity)
  }

  /** The result of one step: the new state and the arguments the action
      was run with, when it ran. The action's own outcome cannot influence
      the state, because `nextImmediate` and the timer are updated before
      the action runs. */
  datatype Step<A> = Step(limiter: Limiter<A>, invoked: Option<A>)

  /** A call of the wrapped function at time `now`. */
  function Call<A>(cfg: Config, s: Limiter<A>, now: int, args: A): (r: Step<A>)
    ensures s.timer.Some? ==> r == Step(s, None)
    ensures s.timer.None? && After(now, s.nextImmediate) ==>
              r.invoked == Some(args) && r.limiter == Limiter(None, At(now + cfg.delay))
    ensures s.timer.None? && !After(now, s.nextImmediate) ==>
              && r.invoked.None?
              && r.limiter.nextImmediate == s.nextImmediate
              && r.limiter.timer == Some(Deferred(now, s.nextImmediate.time, args))
              && r.limiter.timer.value.due - now >= 0
  {
    if s.timer.Some? then Step(s, None)
    else if After(now, s.nextImmediate) then Step(Limiter(None, At(now + cfg.delay)), Some(args))
    else Step(Limiter(Some(Deferred(now, s.nextImmediate.time, args)), s.nextImmediate), None)
  }

  /** The pending timer goes off: it clears itself, restarts the window at
      the time the deferred call was MADE plus the delay, and runs the
      action with that call's arguments. Without a pending timer nothing
      can go off. */
  function Fire<A>(cfg: Config, s: Limiter<A>): (r: Step<A>)
    ensures s.timer.None? ==> r == Step(s, None)
    ensures s.timer.Some? ==>
              && r.invoked == Some(s.timer.value.args)
              && r.limiter.timer.None?
              && r.limiter.nextImmediate == At(s.timer.value.scheduledAt + cfg.delay)
  {
    match s.timer
    case None => Step(s, None)
    case Some(d) => Step(Limiter(None, At(d.scheduledAt + cfg.delay)), Some(d.args))
  }

  /** How a run of the action ended. */
  datatype Outcome = Returned | Threw(error: string)

  /** Where the limiter sends an exception of the action, in either branch. */
  datatype ErrorRoute = NoError | ToOnError(error: string) | Propagated(error: string)

  /** An exception goes to `onError` when there is one and escapes
      otherwise; a normal return goes nowhere. */
  function Route(cfg: Config, outcome: Outcome): (r: ErrorRoute)
    ensures outcome.Returned? <==> r.NoError?
    ensures outcome.Threw? ==> r.error == outcome.error && (r.ToOnError? <==> cfg.hasOnError)
  {
    match outcome
    case Returned => NoError
    case Threw(e) => if cfg.hasOnError then ToOnError(e) else Propagated(e)
  }

  /** The final fate of a run of a method decorated with `useRateLimit`. */
  datatype Fate = Completed | HandledByReceiver(error: string) | Escaped(error: string)

  /** `useRateLimit`'s `onError` calls the receiver's deferred-error
      handler when the receiver has one and rethrows otherwise. */
  function DecoratedFate(receiverHasHandler: bool, outcome: Outcome): (f: Fate)
    ensures outcome.Returned? <==> f.Completed?
    ensures outcome.Threw? && receiverHasHandler ==> f == HandledByReceiver(outcome.error)
    ensures outcome.Threw? && !receiverHasHandler ==> f == Escaped(outcome.error)
  {
    match Route(DecoratorConfig, outcome)
    case NoError => Completed
    case ToOnError(e) => if receiverHasHandler then HandledByReceiver(e) else Escaped(e)
    case Propagated(e) => Escaped(e)
  }

  /** One call of the wrapped function. */
  datatype Request<A> = Request(now: int, args: A)

  /** State after a series of calls and the arguments of every run, in order. */
  datatype Run<A> = Run(limiter: Limiter<A>, invoked: seq<A>)

  /** A series of calls with no timer going off in between. */
  function RunCalls<A>(cfg: Config, s: Limiter<A>, calls: seq<Request<A>>): Run<A>
    decreases |calls|
  {
    if calls == [] then Run(s, [])
    else
      var step := Call(cfg, s, calls[0].now, calls[0].args);
      var rest := RunCalls(cfg, step.limiter, calls[1..]);
      Run(rest.limiter, (if step.invoked.Some? then [step.invoked.value] else []) + rest.invoked)
  }

  /** While a timer is pending every call is dropped: nothing runs and the
      state does not change. */
  lemma {:induction false} DroppedWhilePending<A>(cfg: Config, s: Limiter<A>, calls: seq<Request<A>>)
    requires s.timer.Some?
    ensures RunCalls(cfg, s, calls) == Run(s, [])
    decreases |calls|
  {
    if calls != [] {
      DroppedWhilePending(cfg, s, calls[1..]);
    }
  }

  /** A burst of calls within one window of the first: at most one runs at
      once and at most one more is left pending, carrying the arguments of
      the first call that was deferred. So the burst yields at most two
      runs of the action, and exactly two when it opens a new window and
      has more than one call. */
  lemma {:induction false} BurstRunsAtMostTwice<A>(cfg: Config, s: Limiter<A>, calls: seq<Request<A>>)
    requires s.timer.None? && |calls| > 0
    requires forall k :: 0 <= k < |calls| ==> calls[k].now <= calls[0].now + cfg.delay
    ensures var run := RunCalls(cfg, s, calls);
            |run.invoked| + (if run.limiter.timer.Some? then 1 else 0) <= 2
    ensures var run := RunCalls(cfg, s, calls);
            After(calls[0].now, s.nextImmediate) ==> run.invoked == [calls[0].args]
    ensures var run := RunCalls(cfg, s, calls);
            After(calls[0].now, s.nextImmediate) && |calls| >= 2 ==>
              run.limiter.timer == Some(Deferred(calls[1].now, calls[0].now + cfg.delay, calls[1].args))
    ensures var run := RunCalls(cfg, s, calls);
            !After(calls[0].now, s.nextImmediate) ==>
              run.invoked == [] && run.limiter.timer.Some? && run.limiter.timer.value.args == calls[0].args
  {
    var first := Call(cfg, s, calls[0].now, calls[0].args);
    if After(calls[0].now, s.nextImmediate) {
      if |calls| >= 2 {
        var tail := calls[1..];
        assert tail[0] == calls[1];
        var second := Call(cfg, first.limiter, tail[0].now, tail[0].args);
        DroppedWhilePending(cfg, second.limiter, tail[1..]);
      }
    } else {
      DroppedWhilePending(cfg, first.limiter, calls[1..]);
    }
  }

  /** A state that keeps a run at `last` at least `delay` away: the window
      reaches at least `last + delay`, and a pending timer is due at its end. */
  ghost predicate Spaced<A>(cfg: Config, s: Limiter<A>, last: int)
  {
    && s.nextImmediate.At?
    && s.nextImmediate.time >= last + cfg.delay
    && (s.timer.Some? ==> s.timer.value.due == s.nextImmediate.time)
  }

  /** From a state spaced after an immediate run at `last`, a call that
      runs at once comes more than `delay` after that run and keeps the
      spacing for itself; a call that does not run keeps the spacing of the
      previous run. A deferred run leaves no such spacing (see
      `WindowRestartsAtScheduling`). */
  lemma CallKeepsSpacing<A>(cfg: Config, s: Limiter<A>, last: int, now: int, args: A)
    requires Spaced(cfg, s, last)
    ensures var r := Call(cfg, s, now, args);
            r.invoked.Some? ==> now - last > cfg.delay && Spaced(cfg, r.limiter, now)
    ensures var r := Call(cfg, s, now, args);
            r.invoked.None? ==> Spaced(cfg, r.limiter, last)
  {
  }

  /** The window after a deferred run restarts at the time the deferred
      call was made, not at the time the timer went off. With delay 300:
      calls at 0 and 1 and the timer going off at its due time 300 leave a
      window that a call at 302 is already past, so the action runs at 0,
      300 and 302. */
  lemma WindowRestartsAtScheduling()
    ensures var cfg := PlainConfig;
            var s1 := Call(cfg, Initial<int>(), 0, 10);
            var s2 := Call(cfg, s1.limiter, 1, 11);
            var s3 := Fire(cfg, s2.limiter);
            var s4 := Call(cfg, s3.limiter, 302, 12);
            && s1.invoked == Some(10)
            && s2.invoked.None? && s2.limiter.timer.value.due == 300
            && s3.invoked == Some(11)
            && s4.invoked == Some(12)
            && 302 - s2.limiter.timer.value.due < cfg.delay
            && !Spaced(cfg, s3.limiter, s2.limiter.timer.value.due)
  {
  }
}

=== FILE: search.dfy ===
/** The generic binary search over an array with a caller-supplied
    comparator. The comparator answers -1, 0 or 1 for the probed element:
    0 is a hit, -1 sends the search to the left half and 1 to the right. */
module Search {
  import opened Base

  /** The three answers a comparator may give. */
  datatype Sign = Minus | Zero | Plus

  /** The number the comparator returns for each answer. */
  function SignValue(s: Sign): (v: int)
    ensures -1 <= v <= 1
    ensures v == 0 <==> s == Zero
  {
    match s
    case Minus => -1
    case Zero => 0
    case Plus => 1
  }

  /** The comparator. The element's index is passed along with it; the
      array itself is captured by the closure. */
  type Comparator<!T> = (T, nat) -> Sign

  /** Where an answer places the element relative to the region of hits:
      elements answered 1 lie left of it, elements answered -1 right of it. */
  function Rank(s: Sign): nat
  {
    match s
    case Plus => 0
    case Zero => 1
    case Minus => 2
  }

  /** The comparator is consistent with the order of the array: scanning
      left to right, answers go from 1 through 0 to -1 and never back. */
  ghost predicate Monotone<T>(a: seq<T>, cmp: Comparator<T>)
  {
    forall i, j :: 0 <= i <= j < |a| ==> Rank(cmp(a[i], i)) <= Rank(cmp(a[j], j))
  }

  /** No element of the array is a hit. */
  ghost predicate NoMatch<T>(a: seq<T>, cmp: Comparator<T>)
  {
    forall i :: 0 <= i < |a| ==> cmp(a[i], i) != Zero
  }

  /** The midpoint of a non-empty probe range, for every index a JavaScript
      array can hold. */
  function Mid(start: int, end: int): (m: int)
    requires 0 <= start <= end
    ensures start <= m <= end
    ensures end - m <= m - start + 1 && m - start <= end - m
  {
    (start + end) / 2
  }

  /** The search on the range [start, end], one probe per call, exactly as
      the loop narrows its bounds. */
  function Probe<T>(a: seq<T>, cmp: Comparator<T>, start: int, end: int): (r: Option<nat>)
    requires 0 <= start && end < |a|
    ensures r.Some? ==> start <= r.value <= end && cmp(a[r.value], r.value) == Zero
    decreases end - start
  {
    if start > end then None
    else
      var mid := Mid(start, end);
      match cmp(a[mid], mid)
      case Zero => Some(mid)
      case Minus => Probe(a, cmp, start, mid - 1)
      case Plus => Probe(a, cmp, mid + 1, end)
  }

  /** For a monotone comparator, the search misses only when there is no
      hit anywhere, provided every hit lies in the range still searched. */
  lemma {:induction false} ProbeComplete<T>(a: seq<T>, cmp: Comparator<T>, start: int, end: int)
    requires 0 <= start && end < |a|
    requires Monotone(a, cmp)
    requires forall i :: 0 <= i < |a| && cmp(a[i], i) == Zero ==> start <= i <= end
    ensures Probe(a, cmp, start, end).None? ==> NoMatch(a, cmp)
    decreases end - start
  {
    if start <= end {
      var mid := Mid(start, end);
      match cmp(a[mid], mid)
      case Zero =>
      case Minus =>
        ProbeComplete(a, cmp, start, mid - 1);
      case Plus =>
        ProbeComplete(a, cmp, mid + 1, end);
    }
  }

  /** `binarySearchIndex`: the index of a hit, or None. Alongside the index
      it returns every index it probed, in order, so that the contract can
      speak of the comparator's invocations. */
  method BinarySearchIndex<T>(a: seq<T>, cmp: Comparator<T>) returns (r: Option<nat>, probes: seq<nat>)
    ensures r == Probe(a, cmp, 0, |a| - 1)
    ensures r.Some? ==> r.value < |a| && cmp(a[r.value], r.value) == Zero
    ensures Monotone(a, cmp) ==> (r.None? <==> NoMatch(a, cmp))
    ensures |a| == 0 ==> r.None? && probes == []
    ensures forall k :: 0 <= k < |probes| ==> probes[k] < |a|
    ensures r.Some? ==> |probes| > 0 && probes[|probes| - 1] == r.value
  {
    var start: int := 0;
    var end: int := |a| - 1;
    probes := [];
    while start <= end
      invariant 0 <= start && end < |a|
      invariant Probe(a, cmp, start, end) == Probe(a, cmp, 0, |a| - 1)
      invariant forall k :: 0 <= k < |probes| ==> probes[k] < |a|
      invariant |a| == 0 ==> probes == []
      decreases end - start
    {
      var mid := Mid(start, end);
      probes := probes + [mid];
      match cmp(a[mid], mid)
      case Zero =>
        return Some(mid), probes;
      case Minus =>
        end := mid - 1;
      case Plus =>
        start := mid + 1;
    }
    r := None;
    if Monotone(a, cmp) {
      ProbeComplete(a, cmp, 0, |a| - 1);
    }
  }

  /** `binarySearch`: the element at the index `binarySearchIndex` finds,
      or None when it finds nothing. */
  method BinarySearch<T>(a: seq<T>, cmp: Comparator<T>) returns (r: Option<T>)
    ensures r.Some? <==> Probe(a, cmp, 0, |a| - 1).Some?
    ensures r.Some? ==> r.value == a[Probe(a, cmp, 0, |a| - 1).value]
    ensures r.Some? ==> exists i :: 0 <= i < |a| && a[i] == r.value && cmp(a[i], i) == Zero
    ensures Monotone(a, cmp) ==> (r.None? <==> NoMatch(a, cmp))
  {
    var index, _ := BinarySearchIndex(a, cmp);
    r := if index.None? then None else Some(a[index.value]);
  }

  // The midpoint as written: `(start + end) >> 1` converts the sum to a
  // signed 32-bit integer before shifting.

  const TwoTo31: int := 0x8000_0000
  const TwoTo32: int := 0x1_0000_0000

  /** JavaScript's ToInt32 conversion of an integral number. */
  function ToInt32(x: int): (r: int)
    ensures -TwoTo31 <= r < TwoTo31
    ensures (x - r) % TwoTo32 == 0
  {
    var m := x % TwoTo32;
    if m >= TwoTo31 then m - TwoTo32 else m
  }

  /** `(start + end) >> 1`: an arithmetic shift of the 32-bit sum, which
      rounds towards minus infinity like Dafny's division by 2. */
  function ShiftMid(start: int, end: int): int
  {
    ToInt32(start + end) / 2
  }

  /** For every array of at most 2^30 elements the shift is the midpoint. */
  lemma ShiftMidAgrees(start: int, end: int)
    requires 0 <= start <= end && start + end < TwoTo31
    ensures ShiftMid(start, end) == Mid(start, end)
  {
    assert (start + end) % TwoTo32 == start + end;
  }

  /** In an array of 2^31 + 1 elements (JavaScript allows up to 2^32 - 1),
      the first probe of the as-written midpoint is a negative index. */
  lemma ShiftMidNegative()
    ensures ShiftMid(0, TwoTo31) < 0
    ensures Mid(0, TwoTo31) == TwoTo31 / 2
  {
    assert ToInt32(TwoTo31) == -TwoTo31;
  }
}

=== FILE: selection_editor.dfy ===
/** The selection-driven editor: when the active text editor or its
    selection changes, or a document is saved, it collects the translation
    sets of the fragments under the selection. The handler is rate limited
    and its errors go to the output channel. The editor view is created on
    demand and reused until it is closed. The tooling library's calls on a
    source file (position to offset, fragments in a range) are inputs. */
module SelectionEditor {
  import opened Base
  import Projects
  import RateLimit

  /** A text editor instance; `serial` stands for object identity. The
      handler is given the instance, not a copy of its state. */
  datatype EditorRef = EditorRef(serial: nat)

  /** The part of a text editor's current state the handler reads. */
  datatype TextEditor = TextEditor(path: Path, isDirty: bool, selectionStart: Position, selectionEnd: Position)

  /** A source file known to the registry. */
  datatype SourceFile = SourceFile(path: Path, serial: nat, project: ProjectRef)

  /** A fragment found in a source file. */
  datatype Fragment = Fragment(id: Id, start: int, end: int)

  /** The library and project calls the handler makes. */
  datatype Library = Library(
    isSourceFile: Path -> bool,
    positionToOffset: (SourceFile, Position) -> int,
    fragmentsAt: (SourceFile, int, int) -> seq<Fragment>,
    valid: ProjectRef -> bool,
    translationSet: (ProjectRef, Id) -> Option<Projects.TranslationSet>)

  type TranslationSets = map<Id, Projects.TranslationSet>

  /** What the handler sees when it runs: the active text editor, the
      current state of every text editor instance, the registry's source
      files and the library. */
  datatype Env = Env(active: Option<EditorRef>, editors: EditorRef -> TextEditor,
                     allSources: map<Path, SourceFile>, lib: Library)

  /** The editor's state: the current translation sets and the view, if one
      is open; `nextView` stands for the identity of the next view built. */
  datatype Editor = Editor(translationSets: TranslationSets, view: Option<nat>, nextView: nat)

  /** The result of a run of the handler: the new state and whether
      `onDidChangeTranslationSets` fired. */
  datatype Selection = Selection(editor: Editor, fired: bool)

  /** Reference: the translation sets of the given fragments, by id, for
      the fragments that have one. */
  function Reference(fragments: seq<Fragment>, lookup: Id -> Option<Projects.TranslationSet>): TranslationSets
  {
    map id | id in Ids(fragments) && lookup(id).Some? :: lookup(id).value
  }

  /** The ids of the given fragments. */
  function Ids(fragments: seq<Fragment>): set<Id>
  {
    set f | f in fragments :: f.id
  }

  lemma IdsCons(fragments: seq<Fragment>)
    requires fragments != []
    ensures Ids(fragments) == {fragments[0].id} + Ids(fragments[1..])
  {
    assert forall g :: g in fragments <==> g == fragments[0] || g in fragments[1..];
  }

  /** The loop building the sets: each fragment that has a translation set
      adds it under the fragment's id. */
  function Collect(acc: TranslationSets, fragments: seq<Fragment>, lookup: Id -> Option<Projects.TranslationSet>): TranslationSets
    decreases |fragments|
  {
    if fragments == [] then acc
    else
      var f := fragments[0];
      var acc' := match lookup(f.id) case Some(ts) => acc[f.id := ts] case None => acc;
      Collect(acc', fragments[1..], lookup)
  }

  /** The contribution of one fragment to the sets: its translation set
      under its id, when it has one. */
  function Own(f: Fragment, lookup: Id -> Option<Projects.TranslationSet>): TranslationSets
  {
    match lookup(f.id) case Some(ts) => map[f.id := ts] case None => map[]
  }

  /** The reference map of a list is its head's contribution overridden by
      the reference map of its tail; both agree where they overlap. */
  lemma ReferenceCons(fragments: seq<Fragment>, lookup: Id -> Option<Projects.TranslationSet>)
    requires fragments != []
    ensures Reference(fragments, lookup) == Own(fragments[0], lookup) + Reference(fragments[1..], lookup)
  {
    IdsCons(fragments);
  }

  /** Overriding a map by two maps in turn is overriding it by their merge. */
  lemma MergeAssociates(a: TranslationSets, b: TranslationSets, c: TranslationSets)
    ensures (a + b) + c == a + (b + c)
  {
  }

  /** Starting from `acc`, the loop yields `acc` overridden by the
      reference map: every fragment with a translation set is present under
      its id, and nothing else is added. */
  lemma {:induction false} CollectIsReference(acc: TranslationSets, fragments: seq<Fragment>,
                                              lookup: Id -> Option<Projects.TranslationSet>)
    ensures Collect(acc, fragments, lookup) == acc + Reference(fragments, lookup)
    decreases |fragments|
  {
    if fragments == [] {
      assert Reference(fragments, lookup) == map[];
    } else {
      var f := fragments[0];
      var rest := fragments[1..];
      var acc' := acc + Own(f, lookup);
      assert acc' == match lookup(f.id) case Some(ts) => acc[f.id := ts] case None => acc by {
        if lookup(f.id).Some? {
          assert acc + map[f.id := lookup(f.id).value] == acc[f.id := lookup(f.id).value];
        } else {
          assert acc + map[] == acc;
        }
      }
      assert Collect(acc, fragments, lookup) == Collect(acc', rest, lookup);
      CollectIsReference(acc', rest, lookup);
      ReferenceCons(fragments, lookup);
      MergeAssociates(acc, Own(f, lookup), Reference(rest, lookup));
    }
  }

  /** The text editor the handler works on: its argument, or the active
      one when called without. */
  function Chosen(arg: Option<EditorRef>, active: Option<EditorRef>): (e: Option<EditorRef>)
    ensures arg.Some? ==> e == arg
    ensures arg.None? ==> e == active
  {
    if arg.Some? then arg else active
  }

  /** The handler replaces the sets only for a clean document that is a
      source file known to the registry and whose project is valid. The
      editor's state is read as it is when the handler runs. */
  predicate Applies(e: Option<EditorRef>, env: Env)
  {
    && e.Some?
    && !env.editors(e.value).isDirty
    && env.lib.isSourceFile(env.editors(e.value).path)
    && env.editors(e.value).path in env.allSources
    && env.lib.valid(env.allSources[env.editors(e.value).path].project)
  }

  /** `_updateSelection`. When the guards fail nothing changes and nothing
      fires. Otherwise the sets are replaced wholesale by those of the
      fragments in the selection that have one, and the change event fires. */
  function UpdateSelection(ed: Editor, arg: Option<EditorRef>, env: Env): (r: Selection)
    ensures r.fired <==> Applies(Chosen(arg, env.active), env)
    ensures !r.fired ==> r.editor == ed
    ensures r.fired ==>
              var e := env.editors(Chosen(arg, env.active).value);
              var source := env.allSources[e.path];
              var fragments := env.lib.fragmentsAt(source,
                                 env.lib.positionToOffset(source, e.selectionStart),
                                 env.lib.positionToOffset(source, e.selectionEnd));
              && r.editor == ed.(translationSets := r.editor.translationSets)
              && (forall id :: id in r.editor.translationSets <==>
                    (exists f :: f in fragments && f.id == id) && env.lib.translationSet(source.project, id).Some?)
              && (forall id :: id in r.editor.translationSets ==>
                    Some(r.editor.translationSets[id]) == env.lib.translationSet(source.project, id))
  {
    var chosen := Chosen(arg, env.active);
    if !Applies(chosen, env) then Selection(ed, false)
    else
      var e := env.editors(chosen.value);
      var source := env.allSources[e.path];
      var start := env.lib.positionToOffset(source, e.selectionStart);
      var end := env.lib.positionToOffset(source, e.selectionEnd);
      var fragments := env.lib.fragmentsAt(source, start, end);
      var lookup := id => env.lib.translationSet(source.project, id);
      var sets := Collect(map[], fragments, lookup);
      CollectIsReference(map[], fragments, lookup);
      assert map[] + Reference(fragments, lookup) == Reference(fragments, lookup);
      Selection(ed.(translationSets := sets), true)
  }

  /** The rate-limited handler: the limiter's state, the editor's state and
      the lines the handler's errors wrote to the output channel. */
  datatype Gated = Gated(limiter: RateLimit.Limiter<Option<EditorRef>>, editor: Editor, output: seq<LogLine>)

  /** One run of the handler with an abstract outcome. The editor has a
      deferred-error handler that writes to the output, so a throwing run
      is logged and never escapes; every call that can throw comes before
      the sets are replaced, so a throwing run changes nothing else. */
  function Run(g: Gated, arg: Option<EditorRef>, env: Env, outcome: RateLimit.Outcome): (r: Gated)
    ensures r.limiter == g.limiter
    ensures outcome.Threw? ==> r == g.(output := g.output + [Error(outcome.error)])
    ensures outcome.Returned? ==> r == g.(editor := UpdateSelection(g.editor, arg, env).editor)
  {
    var fate := RateLimit.DecoratedFate(true, outcome);
    if fate.Completed? then g.(editor := UpdateSelection(g.editor, arg, env).editor)
    else g.(output := g.output + [Error(fate.error)])
  }

  /** An event reaching the rate-limited handler at time `now`. */
  function Trigger(g: Gated, now: int, arg: Option<EditorRef>, env: Env, outcome: RateLimit.Outcome): (r: Gated)
    ensures g.limiter.timer.Some? ==> r == g
    ensures r.limiter == RateLimit.Call(RateLimit.DecoratorConfig, g.limiter, now, arg).limiter
    ensures r.output == g.output || (outcome.Threw? && r.output == g.output + [Error(outcome.error)])
    ensures g.limiter.timer.None? && RateLimit.After(now, g.limiter.nextImmediate) && outcome.Returned? ==>
              r.editor == UpdateSelection(g.editor, arg, env).editor && r.output == g.output
    ensures g.limiter.timer.None? && RateLimit.After(now, g.limiter.nextImmediate) && outcome.Threw? ==>
              r.editor == g.editor && r.output == g.output + [Error(outcome.error)]
    ensures g.limiter.timer.None? && !RateLimit.After(now, g.limiter.nextImmediate) ==>
              r.editor == g.editor && r.output == g.output && r.limiter.timer == Some(RateLimit.Deferred(now, g.limiter.nextImmediate.time, arg))
  {
    var step := RateLimit.Call(RateLimit.DecoratorConfig, g.limiter, now, arg);
    var g' := g.(limiter := step.limiter);
    if step.invoked.Some? then Run(g', step.invoked.value, env, outcome) else g'
  }

  /** The limiter's timer going off: the handler runs with the argument of
      the call that was deferred, that is the same editor instance, and
      reads its state and the rest of the world as they are now. */
  function TimerFires(g: Gated, env: Env, outcome: RateLimit.Outcome): (r: Gated)
    ensures g.limiter.timer.None? ==> r == g
    ensures g.limiter.timer.Some? && outcome.Returned? ==>
              r.editor == UpdateSelection(g.editor, g.limiter.timer.value.args, env).editor && r.output == g.output
    ensures g.limiter.timer.Some? && outcome.Threw? ==>
              r.editor == g.editor && r.output == g.output + [Error(outcome.error)]
    ensures g.limiter.timer.Some? ==>
              r.limiter.nextImmediate == RateLimit.At(g.limiter.timer.value.scheduledAt + RateLimit.DecoratorConfig.delay)
    ensures r.limiter.timer.None?
  {
    var step := RateLimit.Fire(RateLimit.DecoratorConfig, g.limiter);
    var g' := g.(limiter := step.limiter);
    if step.invoked.Some? then Run(g', step.invoked.value, env, outcome) else g'
  }

  /** The editor's invariant: an open view was built before `nextView`. */
  ghost predicate Valid(ed: Editor)
  {
    ed.view.Some? ==> ed.view.value < ed.nextView
  }

  /** `_getView`: reuse the open view, or build a fresh one. */
  function GetView(ed: Editor): (r: (Editor, nat))
    ensures ed.view.Some? ==> r == (ed, ed.view.value)
    ensures ed.view.None? ==> r.1 == ed.nextView && r.0 == ed.(view := Some(ed.nextView), nextView := ed.nextView + 1)
    ensures Valid(ed) ==> Valid(r.0) && r.0.view == Some(r.1)
  {
    match ed.view
    case Some(v) => (ed, v)
    case None => (ed.(view := Some(ed.nextView), nextView := ed.nextView + 1), ed.nextView)
  }

  /** The view was closed: the next request builds a new one. */
  function ViewDisposed(ed: Editor): (r: Editor)
    ensures r.view.None? && r == ed.(view := None)
  {
    ed.(view := None)
  }

  /** At most one view at a time: asking twice gives the same view, and
      after it is closed the next one is a different view. */
  lemma OneViewAtATime(ed: Editor)
    requires Valid(ed)
    ensures var (ed1, v1) := GetView(ed);
            && GetView(ed1) == (ed1, v1)
            && GetView(ViewDisposed(ed1)).1 != v1
  {
  }

  /** With a timer pending, any number of events leave everything as it is. */
  lemma PendingTimerIgnoresEvents(g: Gated, events: seq<(int, Option<EditorRef>)>, env: Env, outcome: RateLimit.Outcome)
    requires g.limiter.timer.Some?
    ensures TriggerAll(g, events, env, outcome) == g
    decreases |events|
  {
    if events != [] {
      PendingTimerIgnoresEvents(g, events[1..], env, outcome);
    }
  }

  /** A series of events reaching the handler with no timer going off. */
  function TriggerAll(g: Gated, events: seq<(int, Option<EditorRef>)>, env: Env, outcome: RateLimit.Outcome): Gated
    decreases |events|
  {
    if events == [] then g
    else TriggerAll(Trigger(g, events[0].0, events[0].1, env, outcome), events[1..], env, outcome)
  }

  /** A deferred call sees the editor as it is when the timer goes off: if
      the document became dirty after the call was deferred, the run
      changes nothing, whatever the editor looked like at the call. */
  lemma DeferredRunReadsLiveEditor(g: Gated, now: int, ref: EditorRef, atCall: Env, atFire: Env)
    requires g.limiter.timer.None? && !RateLimit.After(now, g.limiter.nextImmediate)
    requires atFire.editors(ref).isDirty
    ensures var deferred := Trigger(g, now, Some(ref), atCall, RateLimit.Returned);
            && deferred.editor == g.editor
            && TimerFires(deferred, atFire, RateLimit.Returned).editor == g.editor
  {
  }
}
